=== FILE: README.md ===
# AI-assistant relay backend: access keys, configuration resolver, chat relay

A Dafny model of the decision logic of `backend_server.py`, a small Flask
service that

- checks a static shared-secret access key carried in the `X-Access-Key` or
  `Authorization: Bearer` header (and, for `/api/verify`, in the body);
- serves a report-context document and a tools-prompt document, each resolved
  through one chain: relational store, then a local JSON file, then a built-in
  default, with per-field fallback to the default for store rows;
- relays chat requests to the upstream completion API, either as a stream of
  server-sent events (`data: …` lines, in the sense of section 9.2 of the
  WHATWG HTML Living Standard) or as one synchronous `{content, usage}` reply.

All I/O is abstracted into values. The store is a `Store` (no backend, a
failing connection, or the two tables). A JSON file read is a `FileOutcome`.
A `json.loads` result is carried by the cell it decodes. The upstream call is a
`StreamUpstream` / `SyncUpstream` outcome. Every operation is then a total pure
function. The chat functions also return the upstream request they would
send (`ChatResult.sent`). `None` there means no upstream call is made.

Modules (one file each): `Wrappers` (Option, Result), `Json` (values and
Python truthiness), `Text` (`str.strip`, `str.split(',')`, `startswith`),
`Http` (replies), `Defaults` (the two built-in documents, verbatim),
`AccessKeys`, `Resolver`, `Relay`.

Behaviour of the code worth knowing:

- The streaming call forwards the caller's `stream` flag, which defaults to true.
- A store text field falls back to the default when it is `NULL` and also when it is `""`. A falsy data value becomes `{}`.
- An explicit empty `prompt_id` argument is looked up as `""`; only a missing argument becomes `"default_tools_prompt"` (`Resolver.EmptyPromptIdNotDefaulted`).
- Configured keys are not trimmed when loaded. They are trimmed at every comparison, and an empty entry (from a stray comma) stays in the list. As a result, a whitespace-only key sent in the `/api/verify` body is accepted under such a configuration (`AccessKeys.BlankBodyKeyVerifies`).
- The synchronous relay returns the upstream status for every status other than 200, including other 2xx codes.

## Model

| member | source | states |
|---|---|---|
| Json.Truthy | backend_server.py:615-616 | Python truthiness, as in `if not messages` and at lines 469, 481, 517 and 687: a value is falsy exactly when it is `None`, `False`, `0`, `0.0`, `""`, `[]` or `{}` |
| Json.Or | backend_server.py:246 | `x or default`: the left value when truthy, else the default, as for `context_data or {}` and `tools_data or {}` (line 378) |
| Json.OrText | backend_server.py:245-247 | `x or default` on a nullable text column: a non-empty string is kept, `NULL` or `""` gives the default, as also at lines 376-377 |
| Json.FieldOr | backend_server.py:608-611 | `dict.get(key, default)` on an object: the key's value when present, else the default, as also at lines 518, 711 and 715 |
| Json.NoGetMessage | backend_server.py:606-613 | the text of Python's `AttributeError` for `.get` on a non-dict; it has no ensures clause, the text is fixed by its definition |
| Text.IsSpace | backend_server.py:471 | the characters `str.isspace()` accepts, which `strip()` at lines 471, 482 and 487 removes; it has no ensures clause, the set is fixed by its definition |
| Text.StartsWith | backend_server.py:486 | `startswith(p)`: true exactly when `p` is no longer than the string and agrees with it character by character, case included |
| Text.Strip | backend_server.py:471 | `str.strip()` returns a string no longer than its input with no whitespace at either end |
| Text.StripIsSlice | backend_server.py:471 | the result of `strip()` is a slice of the input and everything cut off on either side is whitespace |
| Text.StrippedIsFixed | backend_server.py:482 | a string without edge whitespace is left unchanged by `strip()` |
| Text.StripPadded | backend_server.py:482 | padding a stripped string with whitespace and stripping it gives the string back |
| Text.StripIdempotent | backend_server.py:471 | stripping twice equals stripping once; a string is its own strip iff it has no edge whitespace |
| Text.StripEmptyIffAllSpace | backend_server.py:469-471 | a string strips to `""` exactly when it is all whitespace |
| Text.Split | backend_server.py:56 | `split(',')` yields at least one piece and no piece contains a comma |
| Text.JoinSplit | backend_server.py:56 | re-joining the pieces of a split with the separator gives the original string |
| Text.SplitWithoutSeparator | backend_server.py:56 | a string with no comma splits into the one-element list holding it |
| Text.SplitJoin | backend_server.py:56 | splitting the join of comma-free pieces gives the pieces back |
| AccessKeys.ParseKeyList | backend_server.py:56 | the key list is the environment value (default `demo-key-123`) split at commas: its pieces re-join to that value and none holds a comma |
| AccessKeys.MatchesAny | backend_server.py:471 | membership in the list of trimmed configured keys: true iff some entry trims to the candidate |
| AccessKeys.VerifyAccessKey | backend_server.py:465-471 | `None` and `""` are refused; any other key is accepted iff its trimmed form equals some configured key's trimmed form |
| AccessKeys.ConfiguredKeyAccepted | backend_server.py:465-471 | a configured key written with whitespace padding is accepted when sent with any other padding |
| AccessKeys.SingleKeyAccepted | backend_server.py:465-471 | a comma-free, non-blank, trimmed key list is exactly that one key, and that key is accepted as sent |
| AccessKeys.DefaultKeyAccepted | backend_server.py:56 | with `VALID_ACCESS_KEYS` unset the key list is `["demo-key-123"]` and `demo-key-123` verifies |
| AccessKeys.BlankKeyAcceptance | backend_server.py:469-471 | a non-empty whitespace-only key is accepted iff some configured entry is all whitespace (emptiness is tested before trimming) |
| AccessKeys.TrailingCommaAdmitsBlank | backend_server.py:56 | a key list ending in a comma accepts every whitespace-only key |
| AccessKeys.GetAccessKey | backend_server.py:474-489 | a non-empty `X-Access-Key` wins and is returned trimmed; otherwise an `Authorization` value with the exact prefix `"Bearer "` yields its trimmed remainder; otherwise no key; a returned key is always stripped |
| AccessKeys.XAccessKeyWins | backend_server.py:479-482 | with a non-empty `X-Access-Key` the result does not depend on `Authorization` |
| AccessKeys.BearerRoundTrip | backend_server.py:484-487 | `Bearer <token>` yields the stripped token back |
| AccessKeys.LowercaseBearerIgnored | backend_server.py:486 | the prefix test is case-sensitive: a lower-case `bearer` scheme yields no key |
| AccessKeys.RequireAuth | backend_server.py:492-503 | the handler's reply when the extracted key verifies, otherwise the 401 error reply, which owes nothing to the handler |
| AccessKeys.RequireAuthGrants | backend_server.py:498-502 | the gate opens iff the extracted key is non-empty and equals some trimmed configured key; the reply is either the handler's or the 401 |
| AccessKeys.VerifyReply | backend_server.py:520-529 | `/api/verify` answers 200 with `valid: true` and "验证成功" for a valid key, and 401 with `valid: false` and "秘钥无效或已过期" otherwise; the body has exactly those two fields |
| AccessKeys.BodyKeyReply | backend_server.py:517-529 | without a header key: 200 iff the body's non-empty string `key` verifies; 400 iff the body is unparsable; 500 iff the body is truthy and not an object, or its `key` is truthy and not a string; every 200 or 401 carries the fixed `{"valid", "message"}` body |
| AccessKeys.VerifyKeyEndpoint | backend_server.py:508-529 | 200 iff the header key (when non-empty) or else the body's string `key` verifies; 400 only for an unparsable body without header key; with a header key only 200 or 401; every 200 or 401 carries the fixed `{"valid", "message"}` body |
| AccessKeys.VerifyKeyIgnoresBody | backend_server.py:514-518 | with a usable header key the body is never consulted |
| AccessKeys.BlankBodyKeyVerifies | backend_server.py:514-520 | with a key list ending in a comma, a body `{"key": " "}` without headers is answered 200 |
| Defaults.DefaultContextTitle | backend_server.py:83-87 | the built-in report context's `report_metadata.title` is "空间转录组深度分析报告" |
| Resolver.DefaultTextsNonEmpty | backend_server.py:332-334 | the built-in prompt and instruction texts of both kinds are non-empty |
| Resolver.DefaultsWellFormed | backend_server.py:332-336 | both built-in documents have exactly their three fields, and their text fields are the fallback texts |
| Resolver.FirstActive | backend_server.py:275-282 | the query's row is the first record with the key and `is_active = 1`; none iff no such record |
| Resolver.Query | backend_server.py:223-235 | a missing backend gives `NoBackend` and a failing one `QueryError`, and only those; otherwise the kind's own table is read and the result is its first active record with the key, or `NoActiveRow` iff there is none |
| Resolver.FirstActiveSkips | backend_server.py:398-405 | the first active record with the key is the one returned, whatever follows it |
| Resolver.InactiveInvisible | backend_server.py:232 | inactive records never affect the query's result |
| Resolver.RowData | backend_server.py:240-246 | the data field is the decoded value when truthy, `{}` for `NULL` or a falsy value, and nothing when `json.loads` raises |
| Resolver.FillRow | backend_server.py:244-248 | a row yields a document iff its data decodes, and that document always has exactly the kind's three fields with non-empty text |
| Resolver.FieldFallback | backend_server.py:292-296 | each text field is the row's value when non-empty and the built-in document's value of that field when `NULL` or `""`; the data field is the decoded value or `{}` |
| Resolver.LoadFromStore | backend_server.py:237-254 | the store tier yields a well-formed document iff a row was found and its data decodes; every failure yields `None` |
| Resolver.LoadFromFile | backend_server.py:199-210 | the file's parsed value when there is one, the built-in document for a missing or unreadable file |
| Resolver.Resolve | backend_server.py:305-326 | the resolved document is the file tier's result or a well-formed store document; it is total |
| Resolver.TierOrder | backend_server.py:315-326 | a store document is returned as is with no file lookup; otherwise the file tier decides |
| Resolver.BrokenTiersGiveDefault | backend_server.py:427-448 | with every store failure and no usable file the built-in document is returned |
| Resolver.StoreHitIgnoresFile | backend_server.py:439-448 | a found, decodable row wins whatever the file holds |
| Resolver.GetContext | backend_server.py:558-566 | the context endpoint's document is the file tier's or a well-formed store document |
| Resolver.ContextStoreMiss | backend_server.py:317-324 | with a non-empty `report_id` under mysql/sqlite, a store miss (no backend, a query error, no active record, undecodable data) falls through to the file tier |
| Resolver.ContextStoreHit | backend_server.py:561-562 | with a non-empty `report_id` under mysql/sqlite, the first active context record with that key is served, whatever the tools table and the file hold |
| Resolver.ContextSkipsStore | backend_server.py:561-564 | without a non-empty `report_id` or without `DB_TYPE` mysql/sqlite the store is never consulted |
| Resolver.ContextDefaultTitle | backend_server.py:558-566 | with no store and no file `/api/context` serves the built-in report titled "空间转录组深度分析报告" |
| Resolver.GetToolsPrompt | backend_server.py:579-581 | the tools endpoint's document is the file tier's or a well-formed store document |
| Resolver.ToolsPromptSkipsStore | backend_server.py:439-446 | with `DB_TYPE` other than mysql/sqlite the store is never read and the file tier answers |
| Resolver.ToolsPromptStoreMiss | backend_server.py:439-446 | under mysql/sqlite a store miss for the key looked up, the argument or `default_tools_prompt` without one, falls through to the file tier |
| Resolver.ToolsPromptKey | backend_server.py:579-580 | any `prompt_id` argument, `""` included, is the key looked up: its first active record in the tools table is served, whatever the context table and the file hold |
| Resolver.EmptyPromptIdNotDefaulted | backend_server.py:579-580 | `?prompt_id=` is not replaced by the default key: with only the default record stored, the file tier answers |
| Resolver.ToolsPromptDefaultKey | backend_server.py:579-580 | without `prompt_id` the active `default_tools_prompt` record of a configured store is what is served |
| Resolver.ContextEndpoint | backend_server.py:548-566 | `/api/context` answers 200 with the resolved context iff the key verifies, else 401 |
| Resolver.AcceptedKeyOpensContext | backend_server.py:492-566 | an accepted key in `X-Access-Key` reaches the context resolver and its answer is returned with 200 |
| Resolver.FileTierContext | backend_server.py:561-564 | with `DB_TYPE` naming no store and no context file, `get_context` serves the built-in report |
| Resolver.DefaultKeyOpensContext | backend_server.py:548-566 | with the default key list, no store and no context file, `demo-key-123` receives the built-in report with 200 |
| Resolver.ToolsPromptEndpoint | backend_server.py:569-581 | `/api/tools_prompt` answers 200 with the resolved document iff the key verifies, else 401 |
| Relay.Precheck | backend_server.py:601-616 | no upstream key gives 500 first; then an unreadable or non-object body gives 400; then a missing or falsy `messages` gives 400 "messages 不能为空"; otherwise the parameters with `stream` true, temperature 0.7 and 2000 tokens as defaults |
| Relay.ErrorEvent | backend_server.py:640-656 | an error event is `data: {"error": "` + message + `"}` and a blank line, the message inserted unescaped at a fixed offset |
| Relay.ErrorEventInjective | backend_server.py:640-656 | the message can be read back from an error event, so distinct messages give distinct events |
| Relay.FailureEvent | backend_server.py:651-656 | a timeout gives "请求超时，请稍后重试", a connection error "网络连接失败，请检查网络", anything else "服务器错误: " followed by its description |
| Relay.FailureEventsDistinct | backend_server.py:651-656 | the timeout and connection-error events differ, and an unexpected error's description is carried verbatim |
| Relay.UpstreamErrorEvent | backend_server.py:640-643 | a non-200 status yields the event "API请求失败: " + body text, the text unescaped and recoverable at a fixed offset |
| Relay.Forward | backend_server.py:645-649 | relaying never adds lines, and every relayed line ends with a newline |
| Relay.ForwardRecoversLines | backend_server.py:645-649 | removing the appended newlines gives exactly the non-empty upstream lines in order |
| Relay.ForwardAppend | backend_server.py:646-649 | relaying is incremental: the relay of a concatenation is the concatenation of the relays |
| Relay.ForwardOneToOne | backend_server.py:646-649 | non-empty upstream lines are relayed one for one, each with a newline appended |
| Relay.Relayed | backend_server.py:645-656 | a 200 stream's events are the relayed lines followed by exactly one failure event when the stream was cut |
| Relay.StreamEvents | backend_server.py:618-656 | a failed call yields its one failure event, a non-200 answer one error event, a 200 answer every forwarded line in order, followed by exactly one failure event when the stream was cut |
| Relay.StreamPreservesOrder | backend_server.py:645-649 | an uninterrupted stream relays exactly the non-empty upstream lines in their order |
| Relay.NonOkSingleEvent | backend_server.py:640-643 | a non-200 answer yields exactly one event whatever lines follow |
| Relay.CutAfterLines | backend_server.py:645-656 | a stream cut after k lines delivers those k lines and then one failure event, last |
| Relay.StreamRequest | backend_server.py:629-635 | the streaming request carries the model name and the caller's messages, `stream`, temperature and `max_tokens` |
| Relay.Chat | backend_server.py:601-666 | a refused request makes no upstream call; an accepted one sends the streaming request and replies with the event stream |
| Relay.PrecheckBeforeUpstream | backend_server.py:601-616 | an upstream call is made iff the key is configured, the body is an object and `messages` is truthy; a refused reply does not depend on the upstream |
| Relay.StreamDefaults | backend_server.py:608-611 | a body with only `messages` is sent with `stream` true, temperature 0.7 and 2000 tokens |
| Relay.ChatEndpoint | backend_server.py:584-586 | `/api/chat` is refused with 401 and no upstream call unless the key verifies |
| Relay.Index0 | backend_server.py:711 | `x[0]` succeeds exactly on non-empty lists and strings, and then gives the first element or first character |
| Relay.ExtractReply | backend_server.py:710-716 | extraction succeeds iff the result is an object and `choices` is missing or is a non-empty list whose first element is an object whose `message` is missing or an object; otherwise it raises with Python's `[0]` or `.get` message; when the first choice is an object, the content is its message's `content` (or `''`), extra keys ignored; a missing `choices` or `message` gives `''`; the usage is the result's `usage` or `{}` |
| Relay.ExtractCompletion | backend_server.py:711-716 | the content and usage of a completion come out unchanged; missing keys give `''` and `{}` |
| Relay.SyncReply | backend_server.py:707-723 | timeout gives 504, connection failure 502, other failures 500; a non-200 status is returned with the body; 200 iff the result has the expected shape, with its content and usage; an undecodable body or a raising extraction gives 500 with "服务器错误: " and the exception text |
| Relay.SyncFailureStatuses | backend_server.py:718-723 | the three transport failures get the three distinct statuses |
| Relay.EmptyChoicesRaise | backend_server.py:711 | an empty `choices` list raises `list index out of range` |
| Relay.EmptyChoicesIs500 | backend_server.py:711-723 | an empty `choices` list lands in the generic 500 with "服务器错误: list index out of range" |
| Relay.SyncRequest | backend_server.py:697-703 | the synchronous request always has `stream` false |
| Relay.ChatSync | backend_server.py:669-723 | the same pre-checks without upstream call, then one synchronous request and its mapped reply |
| Relay.SyncNeverStreams | backend_server.py:700 | a caller's `stream: true` is ignored, and an empty `messages` list gives 400 without upstream call |
| Relay.ChatSyncEndpoint | backend_server.py:669-671 | `/api/chat/sync` is refused with 401 and no upstream call unless the key verifies |

## Left out

- Flask routing, CORS, `jsonify`/`Response` construction and the response headers are left out: they are HTTP glue. The 404 handler and startup printing are left out for the same reason. The 500 handler appears only as the reply of an uncaught exception (`Http.InternalError`).
- The real `requests.post` calls, the 60-second timeout and the `requests` exception hierarchy are foreign network code. They appear as the `Failure`, `StreamUpstream` and `SyncUpstream` outcomes, already sorted by the first matching `except` clause.
- Resolver.Query: key matching is exact string equality, which is SQLite's default. Under MySQL the table's `utf8mb4_unicode_ci` collation makes `report_id = :report_id` ignore case and trailing spaces; that collation is not modelled.
- SQL text, the connection pool and sqlite connections are left out as database I/O. The store is a `Store` value. `LIMIT 1` without `ORDER BY` picks an unspecified row; the model picks the first matching record in table order.
- File existence, reading and `json.load`/`json.loads` are I/O and library parsing. They appear as `FileOutcome`, `DataCell` and `Decoded` values. No JSON parser is written.
- Exception texts from libraries appear as opaque strings: the `BadRequest` from `request.json`, `str(e)` of generic failures, and JSON decoding errors. Python's own messages for `.get` on a non-dict and for `[0]` are written out.
- `temperature` and other JSON numbers are exact decimals. Floating-point rounding is not modelled.
- A `415` raised by newer Flask versions for a non-JSON content type is folded into `Malformed`, the unparsable-body case.
- A UTF-8 decoding failure of an upstream line is not modelled separately. It is one of the `Other` failures that can cut a stream.
- `decode_base64_context` is left out: it is unused and wraps library base64 and JSON.
- `health_check` is left out as trivial configuration reporting.
- Environment loading is left out, apart from the key-list split. `DEEPSEEK_API_KEY` and `DB_TYPE` are parameters.
- init_database.py is left out: it is a database bootstrap script.
- test_backend.py is left out: it is a manual network test client.
- Worker concurrency is left out. So are streaming laziness, backpressure and client disconnects: a stream is modelled as its complete, finite sequence of events.

=== FILE: access_keys.dfy ===
/** The static shared-secret check: the configured key list, the key a
    request carries, and the gate put in front of protected handlers. */
module AccessKeys {
  import opened Wrappers
  import opened Json
  import opened Text
  import opened Http

  /** Value of `VALID_ACCESS_KEYS` when the environment does not set it. */
  const DefaultKeyList: string := "demo-key-123"

  /** The configured keys: the environment value (or the default) split at
      every comma. Entries are not trimmed here and may be empty. */
  function ParseKeyList(env: Option<string>): (keys: seq<string>)
    ensures |keys| >= 1
    ensures Join(keys, ',') == env.GetOr(DefaultKeyList)
    ensures forall i :: 0 <= i < |keys| ==> ',' !in keys[i]
  {
    var keys := Split(env.GetOr(DefaultKeyList), ',');
    JoinSplit(env.GetOr(DefaultKeyList), ',');
    keys
  }

  /** Whether `t` is in `[k.strip() for k in keys]`. */
  function MatchesAny(keys: seq<string>, t: string): (b: bool)
    ensures b <==> exists i :: 0 <= i < |keys| && Strip(keys[i]) == t
    decreases |keys|
  {
    if keys == [] then false
    else if Strip(keys[0]) == t then true
    else
      var b := MatchesAny(keys[1..], t);
      assert forall i :: 1 <= i < |keys| ==> keys[i] == keys[1..][i - 1];
      b
  }

  /** `verify_access_key`: a missing or empty key is refused before any
      trimming; any other key is accepted when its trimmed form equals the
      trimmed form of some configured key. */
  function VerifyAccessKey(key: Option<string>, keys: seq<string>): (ok: bool)
    ensures key == None || key == Some("") ==> !ok
    ensures key.Some? && key.value != "" ==>
      (ok <==> exists i :: 0 <= i < |keys| && Strip(keys[i]) == Strip(key.value))
  {
    match key
    case None => false
    case Some(k) => k != "" && MatchesAny(keys, Strip(k))
  }

  /** Surrounding whitespace never matters: a configured key written with
      any whitespace padding is accepted when sent with any other padding. */
  lemma ConfiguredKeyAccepted(keys: seq<string>, i: nat, core: string,
                              l1: string, r1: string, l2: string, r2: string)
    requires i < |keys| && keys[i] == l1 + core + r1
    requires core != "" && Stripped(core)
    requires AllSpace(l1) && AllSpace(r1) && AllSpace(l2) && AllSpace(r2)
    ensures VerifyAccessKey(Some(l2 + core + r2), keys)
  {
    StripPadded(l1, core, r1);
    StripPadded(l2, core, r2);
  }

  /** With the default configuration, the key `demo-key-123` is accepted. */
  lemma DefaultKeyAccepted()
    ensures ParseKeyList(None) == [DefaultKeyList]
    ensures VerifyAccessKey(Some(DefaultKeyList), ParseKeyList(None))
  {
    DefaultKeyShape(DefaultKeyList);
    SingleKeyAccepted(DefaultKeyList);
  }

  lemma DefaultKeyShape(k: string)
    requires k == DefaultKeyList
    ensures k != "" && ',' !in k && Stripped(k)
  {
    assert forall i :: 0 <= i < |k| ==> k[i] != ',';
  }

  /** A comma-free key list names one key, and that key is accepted as sent. */
  lemma SingleKeyAccepted(k: string)
    requires k != "" && ',' !in k && Stripped(k)
    ensures ParseKeyList(Some(k)) == [k]
    ensures VerifyAccessKey(Some(k), [k])
  {
    SplitWithoutSeparator(k, ',');
    StrippedIsFixed(k);
    assert MatchesAny([k], k);
  }

  /** Because emptiness is tested before trimming, a non-empty key made only
      of whitespace is accepted exactly when some configured entry is itself
      all whitespace (an empty entry left by a stray comma, say). */
  lemma BlankKeyAcceptance(key: string, keys: seq<string>)
    requires key != "" && AllSpace(key)
    ensures VerifyAccessKey(Some(key), keys) <==> exists i :: 0 <= i < |keys| && AllSpace(keys[i])
  {
    StripEmptyIffAllSpace(key);
    forall i | 0 <= i < |keys| ensures Strip(keys[i]) == "" <==> AllSpace(keys[i]) {
      StripEmptyIffAllSpace(keys[i]);
    }
  }

  /** A key list ending in a comma has an empty last entry, so it lets any
      whitespace-only key through `VerifyAccessKey`. */
  lemma {:induction false} TrailingCommaAdmitsBlank(config: string, key: string)
    requires key != "" && AllSpace(key)
    ensures VerifyAccessKey(Some(key), ParseKeyList(Some(config + ",")))
  {
    var keys := ParseKeyList(Some(config + ","));
    SplitEndsWithEmpty(config, ',');
    assert AllSpace(keys[|keys| - 1]);
    BlankKeyAcceptance(key, keys);
  }

  lemma {:induction false} SplitEndsWithEmpty(s: string, sep: char)
    ensures var parts := Split(s + [sep], sep); parts[|parts| - 1] == ""
    decreases |s|
  {
    if s == [] {
      assert Split([sep], sep) == [""] + Split([], sep);
    } else {
      assert (s + [sep])[1..] == s[1..] + [sep];
      SplitEndsWithEmpty(s[1..], sep);
    }
  }

  /** The two request headers that can carry a key; `None` when absent. */
  datatype Headers = Headers(xAccessKey: Option<string>, authorization: Option<string>)

  /** The exact, case-sensitive scheme prefix looked for in `Authorization`. */
  const BearerPrefix: string := "Bearer "

  /** `get_access_key_from_request`: a non-empty `X-Access-Key` wins and is
      returned trimmed (even when that leaves `""`); otherwise an
      `Authorization` value starting with `"Bearer "` yields the trimmed rest;
      otherwise there is no key. */
  function GetAccessKey(h: Headers): (key: Option<string>)
    ensures key.Some? ==> Stripped(key.value)
    ensures h.xAccessKey.Some? && h.xAccessKey.value != "" ==>
      key == Some(Strip(h.xAccessKey.value))
    ensures (h.xAccessKey == None || h.xAccessKey == Some("")) ==>
      (key.Some? <==> h.authorization.Some? && StartsWith(h.authorization.value, BearerPrefix))
    ensures (h.xAccessKey == None || h.xAccessKey == Some("")) && key.Some? ==>
      key == Some(Strip(h.authorization.value[|BearerPrefix|..]))
  {
    if h.xAccessKey.Some? && h.xAccessKey.value != "" then Some(Strip(h.xAccessKey.value))
    else
      var auth := h.authorization.GetOr("");
      if StartsWith(auth, BearerPrefix) then Some(Strip(auth[7..]))
      else None
  }

  /** With a non-empty `X-Access-Key`, the `Authorization` header is never
      consulted. */
  lemma XAccessKeyWins(x: string, a1: Option<string>, a2: Option<string>)
    requires x != ""
    ensures GetAccessKey(Headers(Some(x), a1)) == GetAccessKey(Headers(Some(x), a2))
  {
  }

  /** A stripped token sent as `Authorization: Bearer <token>` comes back
      unchanged. */
  lemma BearerRoundTrip(token: string)
    requires Stripped(token)
    ensures GetAccessKey(Headers(None, Some(BearerPrefix + token))) == Some(token)
  {
    var auth := BearerPrefix + token;
    assert auth[..7] == BearerPrefix;
    assert auth[7..] == token;
    StrippedIsFixed(token);
  }

  /** The scheme name is matched case-sensitively: `bearer <token>` yields no key. */
  lemma LowercaseBearerIgnored(token: string)
    ensures GetAccessKey(Headers(None, Some("bearer " + token))) == None
  {
    var auth := "bearer " + token;
    assert auth[0] == 'b';
  }

  /** Message of the 401 reply `require_auth` gives. */
  const AuthErrorMessage: string := "访问秘钥无效或未提供"

  /** `require_auth`: the handler's reply when the request's key verifies,
      otherwise a 401 error reply that owes nothing to the handler. */
  function RequireAuth(h: Headers, keys: seq<string>, handler: () -> Reply): (r: Reply)
    ensures VerifyAccessKey(GetAccessKey(h), keys) ==> r == handler()
    ensures !VerifyAccessKey(GetAccessKey(h), keys) ==> r == ErrorReply(401, AuthErrorMessage)
  {
    if VerifyAccessKey(GetAccessKey(h), keys) then handler()
    else ErrorReply(401, AuthErrorMessage)
  }

  /** A request passes the gate exactly when it carries a non-blank key (by
      header precedence) whose trimmed form is a trimmed configured key; a
      blank header key is refused whatever the configuration. */
  lemma RequireAuthGrants(h: Headers, keys: seq<string>, handler: () -> Reply)
    ensures RequireAuth(h, keys, handler) == handler() || RequireAuth(h, keys, handler) == ErrorReply(401, AuthErrorMessage)
    ensures VerifyAccessKey(GetAccessKey(h), keys) <==>
      GetAccessKey(h).Some? && GetAccessKey(h).value != ""
      && exists i :: 0 <= i < |keys| && Strip(keys[i]) == GetAccessKey(h).value
  {
    var key := GetAccessKey(h);
    if key.Some? {
      StripIdempotent(key.value);
    }
  }

  const VerifiedMessage: string := "验证成功"
  const RefusedMessage: string := "秘钥无效或已过期"

  /** The `/api/verify` replies: 200 with `valid: true` for an accepted key,
      401 with `valid: false` otherwise, and a fixed message for each. */
  function VerifyReply(ok: bool): (r: Reply)
    ensures r.Status() == (if ok then 200 else 401)
    ensures r.JsonReply? && r.body.JObj? && r.body.fields.Keys == {"valid", "message"}
    ensures r.body.fields["valid"] == JBool(ok)
    ensures r.body.fields["message"] == JStr(if ok then VerifiedMessage else RefusedMessage)
  {
    if ok then JsonReply(200, JObj(map["valid" := JBool(true), "message" := JStr(VerifiedMessage)]))
    else JsonReply(401, JObj(map["valid" := JBool(false), "message" := JStr(RefusedMessage)]))
  }

  /** The body's `key` field when the body is an object whose `key` is a
      non-empty string. */
  function BodyKeyString(body: JsonBody): Option<string> {
    if body.Body? && body.value.JObj? && "key" in body.value.fields
       && body.value.fields["key"].JStr? && body.value.fields["key"].s != ""
    then Some(body.value.fields["key"].s)
    else None
  }

  /** A header key that `verify_key` accepts without looking at the body. */
  predicate HasHeaderKey(h: Headers) {
    GetAccessKey(h).Some? && GetAccessKey(h).value != ""
  }

  /** The part of `verify_key` that runs when the headers give no usable
      key: the body's `key` decides. An unparsable body surfaces the
      framework's 400; a truthy body that is not an object, or a truthy `key`
      that is not a string, raises inside the handler and yields the generic 500. */
  function BodyKeyReply(body: JsonBody, keys: seq<string>): (r: Reply)
    ensures r.Status() == 200 <==> VerifyAccessKey(BodyKeyString(body), keys)
    ensures r.Status() == 400 <==> body.Malformed?
    ensures r.Status() == 500 <==>
      && body.Body? && Truthy(body.value)
      && (!body.value.JObj?
          || ("key" in body.value.fields && Truthy(body.value.fields["key"]) && !body.value.fields["key"].JStr?))
    ensures r.Status() in {200, 400, 401, 500}
    ensures r.Status() in {200, 401} ==> r == VerifyReply(r.Status() == 200)
  {
    match body
    case Malformed(_) => FrameworkError(400)
    case Body(v) =>
      if !Truthy(v) then
        assert BodyKeyString(body) == None;
        VerifyReply(false)
      else if !v.JObj? then InternalError
      else
        var k := FieldOr(v, "key", JStr(""));
        if !Truthy(k) then
          assert BodyKeyString(body) == None;
          VerifyReply(false)
        else match k
          case JStr(s) =>
            assert BodyKeyString(body) == Some(s);
            VerifyReply(VerifyAccessKey(Some(s), keys))
          case _ => InternalError
  }

  /** `verify_key` (`POST /api/verify`): the header key when it is
      non-empty, else the body's `key` as `BodyKeyReply` reads it. */
  function VerifyKeyEndpoint(h: Headers, body: JsonBody, keys: seq<string>): (r: Reply)
    ensures r.Status() == 200 <==>
      if HasHeaderKey(h) then VerifyAccessKey(GetAccessKey(h), keys)
      else VerifyAccessKey(BodyKeyString(body), keys)
    ensures r.Status() == 400 <==> !HasHeaderKey(h) && body.Malformed?
    ensures HasHeaderKey(h) ==> r.Status() in {200, 401}
    ensures r.Status() in {200, 401} ==> r == VerifyReply(r.Status() == 200)
  {
    if HasHeaderKey(h) then VerifyReply(VerifyAccessKey(GetAccessKey(h), keys))
    else BodyKeyReply(body, keys)
  }

  /** The body is read only when the headers give no usable key. */
  lemma VerifyKeyIgnoresBody(h: Headers, b1: JsonBody, b2: JsonBody, keys: seq<string>)
    requires HasHeaderKey(h)
    ensures VerifyKeyEndpoint(h, b1, keys) == VerifyKeyEndpoint(h, b2, keys)
  {
  }

  /** With the key list `"<anything>,"`, a body `{"key": " "}` and no key
      header, `/api/verify` answers 200. */
  lemma BlankBodyKeyVerifies(config: string)
    ensures VerifyKeyEndpoint(Headers(None, None), Body(JObj(map["key" := JStr(" ")])),
                              ParseKeyList(Some(config + ","))).Status() == 200
  {
    var body := Body(JObj(map["key" := JStr(" ")]));
    TrailingCommaAdmitsBlank(config, " ");
    assert GetAccessKey(Headers(None, None)) == None;
    assert BodyKeyString(body) == Some(" ");
  }
}

=== FILE: defaults.dfy ===
/** The two built-in documents the resolver falls back to:
    `DEFAULT_CONTEXT_DATA` and `DEFAULT_TOOLS_PROMPT` of backend_server.py. */
module Defaults {
  import opened Json

  const ContextSystem: string :=
    "你是一个专业的助手，下面是本次报告的内容，需要报告内容来回答问题。"

  const ContextInstructions: string :=
    "回答问题时必须严格遵守以下规则：\n1. 必须基于上述报告内容回答问题，对于超出报告范围的问题要明确告知用户\n2. 【格式要求-必须遵守】回答必须使用纯文本格式，严禁使用任何Markdown语法，包括但不限于：**加粗**、*斜体*、# 标题、- 列表符号、1. 数字列表、``` 代码块、> 引用、[链接]() 等\n3. 使用普通的换行和空格来组织内容结构\n4. 回答要简洁准确，直接针对用户的问题"

  const ToolsSystemPrompt: string :=
    "你是一个专业的生物信息学分析助手。以下是平台支持的所有分析模块，当用户的报告中缺少某些分析，或用户提出的问题涉及未进行的分析时，你可以根据用户需求推荐合适的分析模块。"

  const RecommendationInstructions: string :=
    "推荐分析时请遵循以下原则：\n1. 根据用户的研究目的和数据类型推荐最相关的分析\n2. 简要说明推荐该分析的理由和预期收获\n3. 如果多个分析模块相关，按优先级排序推荐\n4. 对于已完成的分析，不要重复推荐"

  /** One entry of `analysis_modules`. */
  function Module(name: string, description: string, summary: string, metrics: map<string, Json>): Json {
    JObj(map[
      "module_name" := JStr(name),
      "description" := JStr(description),
      "output_summary" := JStr(summary),
      "key_metrics" := JObj(metrics)])
  }

  const ReportMetadata: Json := JObj(map[
    "title" := JStr("空间转录组深度分析报告"),
    "project_name" := JStr("report中增加ai助手测试项目"),
    "sample_info" := JObj(map[
      "sample_id" := JStr("LUAD_S1, LUAD_S2"),
      "slide_id" := JStr("LUAD_S1, LUAD_S2"),
      "species" := JStr("hs"),
      "tissue_type" := JStr("肺部")]),
    "analysis_date" := JStr("2025-11-17"),
    "pipeline_version" := JStr("深度分析")])

  const LabelTransfer: Json := JObj(map[
    "module_name" := JStr("细胞类型注释"),
    "description" := JStr("基于参考数据集的细胞类型注释"),
    "output_summary" := JStr("注释了40个细胞群的类型"),
    "key_metrics" := JObj(map[
      "reference_dataset" := JStr("GSE131907_Lung_Cancer_final_tLung"),
      "sc_downSample_num" := JInt(100)]),
    "annotation_results" := JObj(map[
      "cluster_0" := JObj(map["type" := JStr("Fibroblasts"), "confidence" := JFloat(92, -2)]),
      "cluster_1" := JObj(map["type" := JStr("Endothelial cells"), "confidence" := JFloat(88, -2)])])])

  const AnalysisModules: Json := JObj(map[
    "1_0_loadData" := Module("数据加载", "原始数据加载和格式转换", "加载了278328个细胞，6738个基因",
      map["total_cells" := JInt(278328), "total_genes" := JInt(6738)]),
    "1_1_qcData" := Module("质量控制", "数据质量评估和过滤", "过滤后剩余278328个细胞，6738个基因",
      map["filtered_cells" := JInt(0), "filtered_genes" := JInt(0),
          "mito_ratio_threshold" := JInt(0), "doublet_score_threshold" := JInt(0)]),
    "1_2_preprocessData" := Module("数据预处理", "标准化、归一化、批次校正", "完成标准化和批次校正",
      map["normalization_method" := JStr("LogNormalize"), "nFeatures" := JInt(3000)]),
    "1_3_pcaData" := Module("PCA分析", "主成分分析", "完成了PCA主成分分析",
      map["n_pcs" := JInt(40)]),
    "1_4_integrateData" := Module("数据整合", "多样本/多区域数据整合", "完成数据整合，识别批次效应",
      map["integration_method" := JStr("Harmony"), "dim_use" := JInt(30), "k.weight" := JInt(50)]),
    "1_5_clusterReductionData" := Module("聚类降维", "降维聚类分析", "识别15个细胞群",
      map["n_clusters" := JInt(12), "FindClusters_resolution" := JFloat(2, -1), "n.neighbors" := JInt(30)]),
    "2_1_labelTransfer" := LabelTransfer,
    "2_2_stRCTD" := Module("空间解卷积", "空间表达数据的细胞类型解卷积", "注释了36个细胞群的类型",
      map["doublet_mode" := JStr("doublet")]),
    "3_1_BuildNicheAssay" := Module("生态位分析", "构建生态位并分析细胞相互作用", "构建了4个生态位",
      map["neighbors.k" := JInt(20)]),
    "3_2_CellChat2" := Module("细胞通讯分析", "分析细胞间的通讯网络", "识别了111个显著的细胞通讯对",
      map["signaling_pairs" := JInt(120)])])

  /** `DEFAULT_CONTEXT_DATA`. */
  const DefaultContext: Json := JObj(map[
    "system" := JStr(ContextSystem),
    "context" := JObj(map["report_metadata" := ReportMetadata, "analysis_modules" := AnalysisModules]),
    "instructions" := JStr(ContextInstructions)])

  /** `DEFAULT_TOOLS_PROMPT`. */
  const DefaultToolsPrompt: Json := JObj(map[
    "tools_system_prompt" := JStr(ToolsSystemPrompt),
    "recommendation_instructions" := JStr(RecommendationInstructions),
    "tools_data" := EmptyObject])

  /** The built-in report context names the report "空间转录组深度分析报告". */
  lemma DefaultContextTitle()
    ensures DefaultContext.JObj? && "context" in DefaultContext.fields
    ensures DefaultContext.fields["context"].JObj?
    ensures "report_metadata" in DefaultContext.fields["context"].fields
    ensures DefaultContext.fields["context"].fields["report_metadata"] == ReportMetadata
    ensures ReportMetadata.fields["title"] == JStr("空间转录组深度分析报告")
  {
  }
}

=== FILE: http.dfy ===
/** What a request handler hands back to the web framework. */
module Http {
  import opened Json

  datatype Reply =
      /** `jsonify(body), status` */
    | JsonReply(status: int, body: Json)
      /** a `text/event-stream` response with status 200 whose body is these events, in order */
    | EventStream(events: seq<string>)
      /** the framework's own error page for an HTTP error raised and not caught by the handler */
    | FrameworkError(status: int)
  {
    /** The HTTP status line's code. */
    function Status(): int {
      match this
      case JsonReply(s, _) => s
      case EventStream(_) => 200
      case FrameworkError(s) => s
    }
  }

  /** What `request.json` yields: the parsed body (`null` when there is no
      JSON body), or the HTTP error it raises on a body it cannot parse. */
  datatype JsonBody = Malformed(reason: string) | Body(value: Json)

  /** `jsonify({"error": message}), status`, the shape of every error reply. */
  function ErrorReply(status: int, message: string): Reply {
    JsonReply(status, JObj(map["error" := JStr(message)]))
  }

  /** The reply of the `errorhandler(500)` hook, used for every exception a
      handler does not catch. */
  const InternalError: Reply := ErrorReply(500, "服务器内部错误")
}

=== FILE: json.dfy ===
/** JSON values as the Python server sees them after `json.loads`:
    `None`, booleans, integers, floats, strings, lists and dicts. */
module Json {
  import opened Wrappers

  /** A float is kept exactly as `mantissa * 10^exponent`; floating-point
      rounding is not modelled. An object is a map because `json.loads`
      keeps only the last of duplicate keys and `jsonify` sorts keys. */
  datatype Json =
    | JNull
    | JBool(b: bool)
    | JInt(i: int)
    | JFloat(mantissa: int, exponent: int)
    | JStr(s: string)
    | JArr(items: seq<Json>)
    | JObj(fields: map<string, Json>)

  /** Python truthiness of the value: `None`, `False`, `0`, `0.0`, `""`,
      `[]` and `{}` are false, everything else is true. */
  function Truthy(j: Json): (b: bool)
    ensures !b <==>
      || j == JNull || j == JBool(false) || j == JInt(0) || (j.JFloat? && j.mantissa == 0)
      || j == JStr("") || j == JArr([]) || j == EmptyObject
  {
    match j
    case JNull => false
    case JBool(b) => b
    case JInt(i) => i != 0
    case JFloat(m, _) => m != 0
    case JStr(s) => s != ""
    case JArr(items) => items != []
    case JObj(fields) => fields != map[]
  }

  /** Python's `a or b`: the left operand when it is truthy, else the right one. */
  function Or(a: Json, b: Json): (r: Json)
    ensures Truthy(a) ==> r == a
    ensures !Truthy(a) ==> r == b
  {
    if Truthy(a) then a else b
  }

  /** `Or` on optional strings, the shape of a nullable text column:
      `None` and `""` fall back to the default. */
  function OrText(a: Option<string>, default: string): (r: string)
    ensures a.Some? && a.value != "" ==> r == a.value
    ensures a == None || a == Some("") ==> r == default
  {
    match a
    case Some(s) => if s != "" then s else default
    case None => default
  }

  /** The empty object `{}`. */
  const EmptyObject: Json := JObj(map[])

  /** The Python type name of the value, as it appears in `AttributeError`
      and `TypeError` messages. */
  function TypeName(j: Json): string {
    match j
    case JNull => "NoneType"
    case JBool(_) => "bool"
    case JInt(_) => "int"
    case JFloat(_, _) => "float"
    case JStr(_) => "str"
    case JArr(_) => "list"
    case JObj(_) => "dict"
  }

  /** `dict.get(key, default)`. Only objects have it; every other value is
      refused here, and the callers model the `AttributeError` that follows. */
  function FieldOr(obj: Json, key: string, default: Json): (r: Json)
    requires obj.JObj?
    ensures key in obj.fields ==> r == obj.fields[key]
    ensures key !in obj.fields ==> r == default
  {
    if key in obj.fields then obj.fields[key] else default
  }

  /** The message of the `AttributeError` Python raises for `v.get(...)`
      on a value that is not a dict. */
  function NoGetMessage(v: Json): string {
    "'" + TypeName(v) + "' object has no attribute 'get'"
  }
}

=== FILE: relay.dfy ===
/** The chat relay behind `/api/chat` (server-sent events) and
    `/api/chat/sync` (one JSON reply). The upstream completion API is not
    called: what it answered is given as an outcome value, and the request
    the relay would send is part of the result. */
module Relay {
  import opened Wrappers
  import opened Json
  import opened Http
  import opened AccessKeys

  /** The upstream model name sent with every request. */
  const ModelName: string := "deepseek-chat"

  /** `temperature` when the caller gives none (0.7). */
  const DefaultTemperature: Json := JFloat(7, -1)

  /** `max_tokens` when the caller gives none. */
  const DefaultMaxTokens: Json := JInt(2000)

  /** The fields read from the caller's body, defaults filled in. */
  datatype ChatParams = ChatParams(messages: Json, stream: Json, temperature: Json, maxTokens: Json)

  /** The JSON body posted to the completion API. */
  datatype UpstreamRequest = UpstreamRequest(model: string, messages: Json, stream: Json, temperature: Json, maxTokens: Json)

  const MissingKeyMessage: string := "API Key 未配置，请联系管理员"
  const EmptyMessagesMessage: string := "messages 不能为空"

  /** The 400 message for a body that could not be read as an object. */
  function BadRequestMessage(reason: string): string {
    "请求格式错误: " + reason
  }

  /** Outcome of the checks run before any upstream call. */
  datatype Checked = Rejected(reply: Reply) | Accepted(params: ChatParams)

  /** The pre-checks of `chat` and `chat_sync`, in order: no upstream key
      gives 500; then a body `request.json` cannot produce, or one without
      `.get` (not an object, `null` included), gives 400; then falsy
      `messages` gives 400. */
  function Precheck(apiKey: string, body: JsonBody): (c: Checked)
    ensures apiKey == "" ==> c == Rejected(ErrorReply(500, MissingKeyMessage))
    ensures apiKey != "" && body.Malformed? ==> c == Rejected(ErrorReply(400, BadRequestMessage(body.reason)))
    ensures apiKey != "" && body.Body? && !body.value.JObj? ==>
      c == Rejected(ErrorReply(400, BadRequestMessage(NoGetMessage(body.value))))
    ensures apiKey != "" && body.Body? && body.value.JObj? && !Truthy(FieldOr(body.value, "messages", JArr([]))) ==>
      c == Rejected(ErrorReply(400, EmptyMessagesMessage))
    ensures c.Accepted? <==>
      (apiKey != "" && body.Body? && body.value.JObj?
       && "messages" in body.value.fields && Truthy(body.value.fields["messages"]))
    ensures c.Accepted? ==>
      (&& c.params.messages == body.value.fields["messages"]
       && c.params.stream == FieldOr(body.value, "stream", JBool(true))
       && c.params.temperature == FieldOr(body.value, "temperature", DefaultTemperature)
       && c.params.maxTokens == FieldOr(body.value, "max_tokens", DefaultMaxTokens))
    ensures c.Rejected? ==> c.reply.JsonReply? && c.reply.status in {400, 500}
  {
    if apiKey == "" then Rejected(ErrorReply(500, MissingKeyMessage))
    else match body
      case Malformed(reason) => Rejected(ErrorReply(400, BadRequestMessage(reason)))
      case Body(v) =>
        if !v.JObj? then Rejected(ErrorReply(400, BadRequestMessage(NoGetMessage(v))))
        else
          var messages := FieldOr(v, "messages", JArr([]));
          if !Truthy(messages) then Rejected(ErrorReply(400, EmptyMessagesMessage))
          else Accepted(ChatParams(messages, FieldOr(v, "stream", JBool(true)),
                                   FieldOr(v, "temperature", DefaultTemperature),
                                   FieldOr(v, "max_tokens", DefaultMaxTokens)))
  }

  // ---------------------------------------------------------------- streaming

  /** The transport failures, already sorted by the first `except` clause
      that catches them (a connect timeout is a `Timeout`). */
  datatype Failure = Timeout | ConnError | Other(description: string)

  /** What the streaming upstream call did: `requests.post` raised before a
      response, or a response arrived with a status, a body text (read on
      the error path) and the lines `iter_lines` then yielded, possibly cut
      short by a failure. */
  datatype StreamUpstream =
    | Failed(failure: Failure)
    | Answered(code: int, text: string, lines: seq<string>, cut: Option<Failure>)

  /** A server-sent event carrying one `data:` field. */
  predicate IsDataEvent(e: string) {
    |e| >= 8 && e[..6] == "data: " && e[|e| - 2..] == "\n\n"
  }

  /** The fixed text around the message of an error event. */
  const EventHead: string := "data: {\"error\": \""
  const EventTail: string := "\"}\n\n"

  /** `data: {"error": "<message>"}` followed by a blank line. The message is
      inserted as is, without JSON escaping. */
  function ErrorEvent(message: string): (e: string)
    ensures IsDataEvent(e)
    ensures |e| == |EventHead| + |message| + |EventTail|
    ensures e[..|EventHead|] == EventHead && e[|e| - |EventTail|..] == EventTail
    ensures e[|EventHead|..|e| - |EventTail|] == message
  {
    var e := EventHead + message + EventTail;
    assert e[..|EventHead|] == EventHead;
    assert e[|EventHead|..|e| - |EventTail|] == message;
    assert e[|e| - |EventTail|..] == EventTail;
    e
  }

  /** Distinct messages give distinct events: the message can be read back. */
  lemma ErrorEventInjective(m1: string, m2: string)
    requires ErrorEvent(m1) == ErrorEvent(m2)
    ensures m1 == m2
  {
    var e := ErrorEvent(m1);
    assert m1 == e[|EventHead|..|e| - |EventTail|];
  }

  const TimeoutMessage: string := "请求超时，请稍后重试"
  const StreamConnMessage: string := "网络连接失败，请检查网络"
  const ServerErrorPrefix: string := "服务器错误: "
  const ApiFailedPrefix: string := "API请求失败: "
  /** The synchronous relay's connection-error text, shorter than the stream's. */
  const SyncConnMessage: string := "网络连接失败"

  /** The event sent for a failure: fixed texts for a timeout and a
      connection error, the exception's description after a fixed prefix
      for anything else. */
  function FailureEvent(f: Failure): (e: string)
    ensures IsDataEvent(e)
    ensures f == Timeout ==> e == ErrorEvent(TimeoutMessage)
    ensures f == ConnError ==> e == ErrorEvent(StreamConnMessage)
    ensures f.Other? ==> e == ErrorEvent(ServerErrorPrefix + f.description)
  {
    match f
    case Timeout => ErrorEvent(TimeoutMessage)
    case ConnError => ErrorEvent(StreamConnMessage)
    case Other(d) => ErrorEvent(ServerErrorPrefix + d)
  }

  /** Different failures are told apart: the two fixed events differ, and an
      unexpected error's description is carried verbatim. */
  lemma FailureEventsDistinct(d: string)
    ensures FailureEvent(Timeout) != FailureEvent(ConnError)
    ensures var e := FailureEvent(Other(d));
      e[|EventHead| + |ServerErrorPrefix|..|e| - |EventTail|] == d
  {
    if FailureEvent(Timeout) == FailureEvent(ConnError) {
      ErrorEventInjective(TimeoutMessage, StreamConnMessage);
    }
    var e := FailureEvent(Other(d));
    var m := ServerErrorPrefix + d;
    assert e[|EventHead|..|e| - |EventTail|] == m;
    assert m[|ServerErrorPrefix|..] == d;
  }

  /** The event sent for a non-200 status: the upstream body text after a
      fixed prefix, inserted as is, without JSON escaping. */
  function UpstreamErrorEvent(text: string): (e: string)
    ensures IsDataEvent(e)
    ensures e == ErrorEvent(ApiFailedPrefix + text)
    ensures e[|EventHead| + |ApiFailedPrefix|..|e| - |EventTail|] == text
  {
    assert (ApiFailedPrefix + text)[|ApiFailedPrefix|..] == text;
    ErrorEvent(ApiFailedPrefix + text)
  }

  /** The relayed lines: every non-empty upstream line with `"\n"` appended,
      in order; empty lines are dropped. */
  function Forward(lines: seq<string>): (out: seq<string>)
    ensures |out| <= |lines|
    ensures forall i :: 0 <= i < |out| ==> |out[i]| >= 2 && out[i][|out[i]| - 1] == '\n'
    decreases |lines|
  {
    if lines == [] then []
    else if lines[0] == "" then Forward(lines[1..])
    else [lines[0] + "\n"] + Forward(lines[1..])
  }

  /** The non-empty lines, in order: the reference `Forward` is checked against. */
  function NonEmpty(lines: seq<string>): seq<string>
    decreases |lines|
  {
    if lines == [] then [] else (if lines[0] == "" then [] else [lines[0]]) + NonEmpty(lines[1..])
  }

  /** A relayed line with its trailing newline removed. */
  function DropNewline(e: string): string
    requires |e| >= 1
  {
    e[..|e| - 1]
  }

  function DropNewlines(es: seq<string>): (r: seq<string>)
    requires forall i :: 0 <= i < |es| ==> |es[i]| >= 1
    ensures |r| == |es|
    ensures forall i :: 0 <= i < |es| ==> r[i] == DropNewline(es[i])
    decreases |es|
  {
    if es == [] then [] else [DropNewline(es[0])] + DropNewlines(es[1..])
  }

  /** Removing the appended newlines gives back exactly the non-empty
      upstream lines, in their original order: nothing is reordered,
      altered or lost except empty lines. */
  lemma {:induction false} ForwardRecoversLines(lines: seq<string>)
    ensures DropNewlines(Forward(lines)) == NonEmpty(lines)
    decreases |lines|
  {
    if lines != [] {
      ForwardRecoversLines(lines[1..]);
      var rest := Forward(lines[1..]);
      if lines[0] != "" {
        var out := [lines[0] + "\n"] + rest;
        assert out[1..] == rest;
        assert DropNewline(out[0]) == lines[0];
      } else {
        assert [] + NonEmpty(lines[1..]) == NonEmpty(lines[1..]);
      }
    }
  }

  /** Relaying is incremental: the events for a concatenation are the
      events for each part, one after the other. */
  lemma {:induction false} ForwardAppend(a: seq<string>, b: seq<string>)
    ensures Forward(a + b) == Forward(a) + Forward(b)
    decreases |a|
  {
    if a != [] {
      assert (a + b)[1..] == a[1..] + b;
      ForwardAppend(a[1..], b);
    } else {
      assert a + b == b;
    }
  }

  /** Upstream lines that are all non-empty are relayed one for one:
      `[L1, L2, L3]` becomes `[L1 + "\n", L2 + "\n", L3 + "\n"]`. */
  lemma {:induction false} ForwardOneToOne(lines: seq<string>)
    requires forall i :: 0 <= i < |lines| ==> lines[i] != ""
    ensures |Forward(lines)| == |lines|
    ensures forall i :: 0 <= i < |lines| ==> Forward(lines)[i] == lines[i] + "\n"
    decreases |lines|
  {
    if lines != [] {
      ForwardOneToOne(lines[1..]);
      var out := Forward(lines);
      assert out == [lines[0] + "\n"] + Forward(lines[1..]);
      forall i | 1 <= i < |lines| ensures out[i] == lines[i] + "\n" {
        assert out[i] == Forward(lines[1..])[i - 1];
        assert lines[1..][i - 1] == lines[i];
      }
    }
  }

  /** The events of a 200 answer: the relayed lines, then the event of the
      failure that cut the stream, if one did. */
  function Relayed(lines: seq<string>, cut: Option<Failure>): (events: seq<string>)
    ensures |events| == |Forward(lines)| + (if cut.Some? then 1 else 0)
    ensures events[..|Forward(lines)|] == Forward(lines)
    ensures cut.Some? ==> events[|events| - 1] == FailureEvent(cut.value)
  {
    var forwarded := Forward(lines);
    match cut
    case None =>
      assert forwarded[..|forwarded|] == forwarded;
      forwarded
    case Some(f) =>
      var events := forwarded + [FailureEvent(f)];
      assert events[..|forwarded|] == forwarded;
      events
  }

  /** `generate_stream`: the events sent to the caller, in order. */
  function StreamEvents(u: StreamUpstream): (events: seq<string>)
    ensures u.Failed? ==> events == [FailureEvent(u.failure)]
    ensures u.Answered? && u.code != 200 ==> events == [UpstreamErrorEvent(u.text)]
    ensures u.Answered? && u.code == 200 ==>
      (&& |events| == |Forward(u.lines)| + (if u.cut.Some? then 1 else 0)
       && events[..|Forward(u.lines)|] == Forward(u.lines)
       && (u.cut.Some? ==> events[|events| - 1] == FailureEvent(u.cut.value)))
  {
    match u
    case Failed(f) => [FailureEvent(f)]
    case Answered(code, text, lines, cut) =>
      if code != 200 then [UpstreamErrorEvent(text)] else Relayed(lines, cut)
  }

  /** An uninterrupted 200 stream relays exactly the non-empty upstream
      lines, in their original order, each with one newline appended. */
  lemma StreamPreservesOrder(text: string, lines: seq<string>)
    ensures var events := StreamEvents(Answered(200, text, lines, None));
      && (forall i :: 0 <= i < |events| ==> |events[i]| >= 1)
      && DropNewlines(events) == NonEmpty(lines)
  {
    ForwardRecoversLines(lines);
    assert Forward(lines)[..|Forward(lines)|] == Forward(lines);
  }

  /** A non-200 answer yields exactly one error event, whatever the lines. */
  lemma NonOkSingleEvent(code: int, text: string, l1: seq<string>, c1: Option<Failure>,
                         l2: seq<string>, c2: Option<Failure>)
    requires code != 200
    ensures StreamEvents(Answered(code, text, l1, c1)) == StreamEvents(Answered(code, text, l2, c2))
    ensures |StreamEvents(Answered(code, text, l1, c1))| == 1
  {
  }

  /** A stream cut after `k` non-empty lines delivers those `k` relayed
      lines and then exactly one failure event, which is the last event. */
  lemma {:induction false} CutAfterLines(lines: seq<string>, f: Failure)
    requires forall i :: 0 <= i < |lines| ==> lines[i] != ""
    ensures var events := StreamEvents(Answered(200, "", lines, Some(f)));
      && |events| == |lines| + 1
      && (forall i :: 0 <= i < |lines| ==> events[i] == lines[i] + "\n")
      && events[|lines|] == FailureEvent(f)
  {
    ForwardOneToOne(lines);
  }

  /** The request body for the streaming call: the caller's `stream` flag
      and defaults forwarded. */
  function StreamRequest(p: ChatParams): (r: UpstreamRequest)
    ensures r.model == ModelName && r.messages == p.messages
    ensures r.stream == p.stream && r.temperature == p.temperature && r.maxTokens == p.maxTokens
  {
    UpstreamRequest(ModelName, p.messages, p.stream, p.temperature, p.maxTokens)
  }

  /** A reply together with the upstream request made to produce it, if any. */
  datatype ChatResult = ChatResult(sent: Option<UpstreamRequest>, reply: Reply)

  /** `chat`: the pre-checks, then one upstream call whose outcome becomes
      the event stream. */
  function Chat(apiKey: string, body: JsonBody, upstream: StreamUpstream): (r: ChatResult)
    ensures Precheck(apiKey, body).Rejected? ==> r == ChatResult(None, Precheck(apiKey, body).reply)
    ensures Precheck(apiKey, body).Accepted? ==>
      r == ChatResult(Some(StreamRequest(Precheck(apiKey, body).params)), EventStream(StreamEvents(upstream)))
  {
    match Precheck(apiKey, body)
    case Rejected(reply) => ChatResult(None, reply)
    case Accepted(p) => ChatResult(Some(StreamRequest(p)), EventStream(StreamEvents(upstream)))
  }

  /** No upstream call is made unless every pre-check passes, and a refused
      request's reply does not depend on the upstream. */
  lemma PrecheckBeforeUpstream(apiKey: string, body: JsonBody, u1: StreamUpstream, u2: StreamUpstream)
    ensures Chat(apiKey, body, u1).sent.Some? <==>
      apiKey != "" && body.Body? && body.value.JObj?
      && "messages" in body.value.fields && Truthy(body.value.fields["messages"])
    ensures Chat(apiKey, body, u1).sent == None ==> Chat(apiKey, body, u1) == Chat(apiKey, body, u2)
    ensures apiKey == "" ==> Chat(apiKey, body, u1).reply.Status() == 500
    ensures apiKey != "" && body.Malformed? ==> Chat(apiKey, body, u1).reply.Status() == 400
  {
  }

  /** A caller body without `stream`, `temperature` or `max_tokens` is sent
      upstream with `stream` true, temperature 0.7 and 2000 tokens. */
  lemma StreamDefaults(apiKey: string, messages: Json, u: StreamUpstream)
    requires apiKey != "" && Truthy(messages)
    ensures Chat(apiKey, Body(JObj(map["messages" := messages])), u).sent
      == Some(UpstreamRequest(ModelName, messages, JBool(true), DefaultTemperature, DefaultMaxTokens))
  {
  }

  /** `POST /api/chat` behind the access-key gate. */
  function ChatEndpoint(h: Headers, keys: seq<string>, apiKey: string, body: JsonBody, upstream: StreamUpstream): (r: ChatResult)
    ensures !VerifyAccessKey(GetAccessKey(h), keys) ==> r == ChatResult(None, ErrorReply(401, AuthErrorMessage))
    ensures VerifyAccessKey(GetAccessKey(h), keys) ==> r == Chat(apiKey, body, upstream)
  {
    if VerifyAccessKey(GetAccessKey(h), keys) then Chat(apiKey, body, upstream)
    else ChatResult(None, ErrorReply(401, AuthErrorMessage))
  }

  // -------------------------------------------------------------- synchronous

  /** What `response.json()` gave: a value, or the message of the error it raised. */
  datatype Decoded = NotJson(reason: string) | JsonValue(value: Json)

  /** What the synchronous upstream call did. */
  datatype SyncUpstream =
    | SyncFailed(failure: Failure)
    | SyncAnswered(code: int, text: string, body: Decoded)

  /** Python's `x[0]`, with the message of the exception it raises. */
  function Index0(x: Json): (r: Result<Json, string>)
    ensures r.Success? <==> (x.JArr? && x.items != []) || (x.JStr? && x.s != "")
    ensures r.Success? && x.JArr? ==> r.value == x.items[0]
    ensures r.Success? && x.JStr? ==> r.value == JStr([x.s[0]])
  {
    match x
    case JArr(items) => if items == [] then Failure("list index out of range") else Success(items[0])
    case JStr(s) => if s == "" then Failure("string index out of range") else Success(JStr([s[0]]))
    case JObj(_) => Failure("0")
    case _ => Failure("'" + TypeName(x) + "' object is not subscriptable")
  }

  /** `result.get('choices', [{}])[0].get('message', {}).get('content', '')`
      and `result.get('usage', {})`, or the message of the exception the
      chain raises. */
  function ExtractReply(result: Json): (r: Result<(Json, Json), string>)
    ensures !result.JObj? ==> r == Failure(NoGetMessage(result))
    ensures result.JObj? && "choices" in result.fields && result.fields["choices"] == JArr([]) ==>
      r == Failure("list index out of range")
    ensures r.Success? ==> result.JObj? && r.value.1 == FieldOr(result, "usage", EmptyObject)
    ensures result.JObj? && "choices" !in result.fields ==> r == Success((JStr(""), FieldOr(result, "usage", EmptyObject)))
    ensures r.Success? <==>
      && result.JObj?
      && ("choices" !in result.fields
          || (var c := result.fields["choices"];
              && c.JArr? && c.items != [] && c.items[0].JObj?
              && ("message" !in c.items[0].fields || c.items[0].fields["message"].JObj?)))
    ensures result.JObj? && "choices" in result.fields && Index0(result.fields["choices"]).Failure? ==>
      r == Failure(Index0(result.fields["choices"]).error)
    ensures (&& result.JObj? && "choices" in result.fields && Index0(result.fields["choices"]).Success?
             && !Index0(result.fields["choices"]).value.JObj?) ==>
      r == Failure(NoGetMessage(Index0(result.fields["choices"]).value))
    ensures (&& result.JObj? && "choices" in result.fields
             && result.fields["choices"].JArr? && result.fields["choices"].items != []
             && result.fields["choices"].items[0].JObj?) ==>
      var first := result.fields["choices"].items[0];
      && ("message" !in first.fields ==> r == Success((JStr(""), FieldOr(result, "usage", EmptyObject))))
      && ("message" in first.fields && first.fields["message"].JObj? ==>
            r == Success((FieldOr(first.fields["message"], "content", JStr("")), FieldOr(result, "usage", EmptyObject))))
  {
    if !result.JObj? then Failure(NoGetMessage(result))
    else match Index0(FieldOr(result, "choices", JArr([EmptyObject])))
      case Failure(e) => Failure(e)
      case Success(first) =>
        if !first.JObj? then Failure(NoGetMessage(first))
        else
          var message := FieldOr(first, "message", EmptyObject);
          if !message.JObj? then Failure(NoGetMessage(message))
          else Success((FieldOr(message, "content", JStr("")), FieldOr(result, "usage", EmptyObject)))
  }

  /** A well-formed completion: one choice with a message, and a usage object. */
  function Completion(content: Json, usage: Json): Json {
    JObj(map[
      "choices" := JArr([JObj(map["message" := JObj(map["content" := content])])]),
      "usage" := usage])
  }

  /** The content and usage put into a completion are what come out; a
      completion missing its keys yields `''` and `{}`. */
  lemma ExtractCompletion(content: Json, usage: Json)
    ensures ExtractReply(Completion(content, usage)) == Success((content, usage))
    ensures ExtractReply(JObj(map[])) == Success((JStr(""), EmptyObject))
    ensures ExtractReply(JObj(map["choices" := JArr([JObj(map[])])])) == Success((JStr(""), EmptyObject))
  {
  }

  /** The reply of `chat_sync` for an upstream outcome. */
  function SyncReply(u: SyncUpstream): (r: Reply)
    ensures u.SyncFailed? && u.failure == Timeout ==> r == ErrorReply(504, TimeoutMessage)
    ensures u.SyncFailed? && u.failure == ConnError ==> r == ErrorReply(502, SyncConnMessage)
    ensures u.SyncFailed? && u.failure.Other? ==> r == ErrorReply(500, ServerErrorPrefix + u.failure.description)
    ensures u.SyncAnswered? && u.code != 200 ==> r == ErrorReply(u.code, ApiFailedPrefix + u.text)
    ensures r.Status() == 200 <==> u.SyncAnswered? && u.code == 200 && u.body.JsonValue? && ExtractReply(u.body.value).Success?
    ensures r.Status() == 200 ==> r == JsonReply(200, JObj(map[
      "content" := ExtractReply(u.body.value).value.0, "usage" := ExtractReply(u.body.value).value.1]))
    ensures u.SyncAnswered? && u.code == 200 && r.Status() != 200 ==> r.Status() == 500
    ensures u.SyncAnswered? && u.code == 200 && u.body.NotJson? ==>
      r == ErrorReply(500, ServerErrorPrefix + u.body.reason)
    ensures u.SyncAnswered? && u.code == 200 && u.body.JsonValue? && ExtractReply(u.body.value).Failure? ==>
      r == ErrorReply(500, ServerErrorPrefix + ExtractReply(u.body.value).error)
  {
    match u
    case SyncFailed(Timeout) => ErrorReply(504, TimeoutMessage)
    case SyncFailed(ConnError) => ErrorReply(502, SyncConnMessage)
    case SyncFailed(Other(d)) => ErrorReply(500, ServerErrorPrefix + d)
    case SyncAnswered(code, text, body) =>
      if code != 200 then ErrorReply(code, ApiFailedPrefix + text)
      else match body
        case NotJson(reason) => ErrorReply(500, ServerErrorPrefix + reason)
        case JsonValue(result) =>
          match ExtractReply(result)
          case Failure(e) => ErrorReply(500, ServerErrorPrefix + e)
          case Success(cu) => JsonReply(200, JObj(map["content" := cu.0, "usage" := cu.1]))
  }

  /** Each transport failure has its own status, and none is 200. */
  lemma SyncFailureStatuses(d: string)
    ensures SyncReply(SyncFailed(Timeout)).Status() == 504
    ensures SyncReply(SyncFailed(ConnError)).Status() == 502
    ensures SyncReply(SyncFailed(Other(d))).Status() == 500
  {
  }

  /** An empty `choices` list raises inside the handler and lands in the generic 500. */
  lemma EmptyChoicesIs500(text: string, usage: Json)
    ensures SyncReply(SyncAnswered(200, text, JsonValue(JObj(map["choices" := JArr([]), "usage" := usage]))))
      == ErrorReply(500, ServerErrorPrefix + "list index out of range")
  {
    EmptyChoicesRaise(JObj(map["choices" := JArr([]), "usage" := usage]));
  }

  lemma EmptyChoicesRaise(result: Json)
    requires result.JObj? && "choices" in result.fields && result.fields["choices"] == JArr([])
    ensures ExtractReply(result) == Failure("list index out of range")
  {
  }

  /** The request body for the synchronous call: `stream` is always false. */
  function SyncRequest(p: ChatParams): (r: UpstreamRequest)
    ensures r.model == ModelName && r.messages == p.messages && r.stream == JBool(false)
    ensures r.temperature == p.temperature && r.maxTokens == p.maxTokens
  {
    UpstreamRequest(ModelName, p.messages, JBool(false), p.temperature, p.maxTokens)
  }

  /** `chat_sync`: the same pre-checks, then one upstream call. */
  function ChatSync(apiKey: string, body: JsonBody, upstream: SyncUpstream): (r: ChatResult)
    ensures Precheck(apiKey, body).Rejected? ==> r == ChatResult(None, Precheck(apiKey, body).reply)
    ensures Precheck(apiKey, body).Accepted? ==>
      r == ChatResult(Some(SyncRequest(Precheck(apiKey, body).params)), SyncReply(upstream))
  {
    match Precheck(apiKey, body)
    case Rejected(reply) => ChatResult(None, reply)
    case Accepted(p) => ChatResult(Some(SyncRequest(p)), SyncReply(upstream))
  }

  /** The synchronous call ignores a caller's `stream: true`, and an empty
      `messages` list is refused with 400 before any upstream call. */
  lemma SyncNeverStreams(apiKey: string, messages: Json, u: SyncUpstream)
    requires apiKey != ""
    ensures Truthy(messages) ==>
      ChatSync(apiKey, Body(JObj(map["messages" := messages, "stream" := JBool(true)])), u).sent.value.stream == JBool(false)
    ensures ChatSync(apiKey, Body(JObj(map["messages" := JArr([])])), u)
      == ChatResult(None, ErrorReply(400, EmptyMessagesMessage))
  {
  }

  /** `POST /api/chat/sync` behind the access-key gate. */
  function ChatSyncEndpoint(h: Headers, keys: seq<string>, apiKey: string, body: JsonBody, upstream: SyncUpstream): (r: ChatResult)
    ensures !VerifyAccessKey(GetAccessKey(h), keys) ==> r == ChatResult(None, ErrorReply(401, AuthErrorMessage))
    ensures VerifyAccessKey(GetAccessKey(h), keys) ==> r == ChatSync(apiKey, body, upstream)
  {
    if VerifyAccessKey(GetAccessKey(h), keys) then ChatSync(apiKey, body, upstream)
    else ChatResult(None, ErrorReply(401, AuthErrorMessage))
  }
}

=== FILE: resolver.dfy ===
/** The configuration resolver behind `/api/context` and `/api/tools_prompt`:
    store tier, then file tier, then the built-in default, one algorithm for
    both document kinds. Database and file access are given as outcomes. */
module Resolver {
  import opened Wrappers
  import opened Json
  import opened Defaults
  import opened Http
  import opened AccessKeys
  import opened Text

  /** The two resources resolved the same way. */
  datatype Kind = ReportContext | ToolsPrompt

  /** Name of the document's prompt text field. */
  function PromptField(kind: Kind): string {
    match kind
    case ReportContext => "system"
    case ToolsPrompt => "tools_system_prompt"
  }

  /** Name of the document's instructions text field. */
  function InstructionsField(kind: Kind): string {
    match kind
    case ReportContext => "instructions"
    case ToolsPrompt => "recommendation_instructions"
  }

  /** Name of the document's data object field. */
  function DataField(kind: Kind): string {
    match kind
    case ReportContext => "context"
    case ToolsPrompt => "tools_data"
  }

  /** The built-in document of the kind. */
  function DefaultDocument(kind: Kind): Json {
    match kind
    case ReportContext => DefaultContext
    case ToolsPrompt => DefaultToolsPrompt
  }

  /** The built-in document's prompt text. */
  function DefaultPrompt(kind: Kind): string {
    match kind
    case ReportContext => ContextSystem
    case ToolsPrompt => ToolsSystemPrompt
  }

  /** The built-in document's instructions text. */
  function DefaultInstructions(kind: Kind): string {
    match kind
    case ReportContext => ContextInstructions
    case ToolsPrompt => RecommendationInstructions
  }

  /** A document with exactly the kind's three fields, the two text fields
      being non-empty strings: what the store and default tiers produce. */
  predicate WellFormed(kind: Kind, doc: Json) {
    && doc.JObj?
    && doc.fields.Keys == {PromptField(kind), DataField(kind), InstructionsField(kind)}
    && doc.fields[PromptField(kind)].JStr? && doc.fields[PromptField(kind)].s != ""
    && doc.fields[InstructionsField(kind)].JStr? && doc.fields[InstructionsField(kind)].s != ""
  }

  /** The built-in texts are not empty. */
  lemma DefaultTextsNonEmpty(kind: Kind)
    ensures DefaultPrompt(kind) != "" && DefaultInstructions(kind) != ""
  {
    match kind
    case ReportContext =>
      assert |ContextSystem| > 0;
      assert |ContextInstructions| > 0;
    case ToolsPrompt =>
      assert |ToolsSystemPrompt| > 0;
      assert |RecommendationInstructions| > 0;
  }

  /** Each built-in document is well formed, and its text fields are the
      texts `FillRow` falls back to. */
  lemma DefaultsWellFormed(kind: Kind)
    ensures WellFormed(kind, DefaultDocument(kind))
    ensures DefaultDocument(kind).fields[PromptField(kind)] == JStr(DefaultPrompt(kind))
    ensures DefaultDocument(kind).fields[InstructionsField(kind)] == JStr(DefaultInstructions(kind))
  {
    DefaultTextsNonEmpty(kind);
  }

  /** The data column as the driver returns it: SQL `NULL`, or text whose
      `json.loads` either produced a value or raised. */
  datatype DataCell = NullCell | TextCell(decoded: Option<Json>)

  /** The columns the query selects (the unused `project_name` aside):
      prompt text, instructions text, data. */
  datatype StoreRow = StoreRow(prompt: Option<string>, instructions: Option<string>, data: DataCell)

  /** One table row: its key (`report_id` / `prompt_id`), its `is_active = 1`
      flag, and its columns. */
  datatype Record = Record(id: string, active: bool, row: StoreRow)

  /** The relational store as one request sees it: no engine or no database
      file, a connection or query that raises, or the two tables. */
  datatype Store =
    | Unavailable
    | Broken(reason: string)
    | Tables(contexts: seq<Record>, toolsPrompts: seq<Record>)

  /** What the store tier's query produced. */
  datatype StoreOutcome = NoBackend | QueryError | NoActiveRow | Found(row: StoreRow)

  /** `... WHERE <id> = ? AND is_active = 1 LIMIT 1`: the first active record
      with the key, in table order. */
  function FirstActive(rows: seq<Record>, id: string): (r: Option<StoreRow>)
    ensures r == None <==> forall i :: 0 <= i < |rows| ==> !(rows[i].id == id && rows[i].active)
    ensures r.Some? ==> exists i ::
      && 0 <= i < |rows| && rows[i].id == id && rows[i].active && rows[i].row == r.value
      && forall j :: 0 <= j < i ==> !(rows[j].id == id && rows[j].active)
    decreases |rows|
  {
    if rows == [] then None
    else if rows[0].id == id && rows[0].active then Some(rows[0].row)
    else
      var r := FirstActive(rows[1..], id);
      assert forall i :: 1 <= i < |rows| ==> rows[i] == rows[1..][i - 1];
      r
  }

  /** The store tier's query for the kind's table and key. */
  function Query(store: Store, kind: Kind, id: string): (o: StoreOutcome)
    ensures store.Unavailable? <==> o == NoBackend
    ensures store.Broken? <==> o == QueryError
    ensures store.Tables? ==>
      var rows := if kind == ReportContext then store.contexts else store.toolsPrompts;
      && (o == NoActiveRow <==> forall i :: 0 <= i < |rows| ==> !(rows[i].id == id && rows[i].active))
      && (o.Found? ==> exists i ::
            && 0 <= i < |rows| && rows[i].id == id && rows[i].active && rows[i].row == o.row
            && forall j :: 0 <= j < i ==> !(rows[j].id == id && rows[j].active))
  {
    match store
    case Unavailable => NoBackend
    case Broken(_) => QueryError
    case Tables(contexts, tools) =>
      var rows := if kind == ReportContext then contexts else tools;
      match FirstActive(rows, id)
      case None => NoActiveRow
      case Some(row) => Found(row)
  }

  /** Records switched off (`is_active = 0`) are never seen: deleting them
      does not change what the query returns. */
  lemma {:induction false} InactiveInvisible(rows: seq<Record>, r: Record, id: string)
    requires !r.active
    ensures FirstActive(rows + [r], id) == FirstActive(rows, id)
    ensures FirstActive([r] + rows, id) == FirstActive(rows, id)
    decreases |rows|
  {
    assert ([r] + rows)[1..] == rows;
    if rows != [] {
      assert (rows + [r])[1..] == rows[1..] + [r];
      InactiveInvisible(rows[1..], r, id);
    }
  }

  /** The data field of a found row: the decoded value when truthy, `{}`
      when the cell is `NULL` or decodes to a falsy value; `None` when
      `json.loads` raised. */
  function RowData(cell: DataCell): (r: Option<Json>)
    ensures r == None <==> cell == TextCell(None)
    ensures r.Some? ==> Truthy(r.value) || r.value == EmptyObject
    ensures cell.TextCell? && cell.decoded.Some? && Truthy(cell.decoded.value) ==> r == cell.decoded
    ensures cell == NullCell || (cell.TextCell? && cell.decoded.Some? && !Truthy(cell.decoded.value)) ==>
      r == Some(EmptyObject)
  {
    match cell
    case NullCell => Some(EmptyObject)
    case TextCell(None) => None
    case TextCell(Some(j)) => Some(Or(j, EmptyObject))
  }

  /** The document built from a found row: every empty or `NULL` text field
      is taken from the built-in document, the data field from `RowData`. */
  function FillRow(kind: Kind, row: StoreRow): (r: Option<Json>)
    ensures r.Some? <==> row.data != TextCell(None)
    ensures r.Some? ==> WellFormed(kind, r.value)
  {
    DefaultTextsNonEmpty(kind);
    match RowData(row.data)
    case None => None
    case Some(data) =>
      Some(JObj(map[
        PromptField(kind) := JStr(OrText(row.prompt, DefaultPrompt(kind))),
        DataField(kind) := data,
        InstructionsField(kind) := JStr(OrText(row.instructions, DefaultInstructions(kind)))]))
  }

  /** Field-level fallback: in a document built from a row, each text field
      is the row's value when it is a non-empty string and the built-in
      document's value of that field otherwise; the data field is the
      decoded value, or `{}` for a `NULL` cell or a falsy value. */
  lemma FieldFallback(kind: Kind, row: StoreRow)
    requires row.data != TextCell(None)
    ensures var doc := FillRow(kind, row).value;
      && (row.prompt.Some? && row.prompt.value != "" ==> doc.fields[PromptField(kind)] == JStr(row.prompt.value))
      && (row.prompt == None || row.prompt == Some("") ==>
            doc.fields[PromptField(kind)] == DefaultDocument(kind).fields[PromptField(kind)])
      && (row.instructions.Some? && row.instructions.value != "" ==>
            doc.fields[InstructionsField(kind)] == JStr(row.instructions.value))
      && (row.instructions == None || row.instructions == Some("") ==>
            doc.fields[InstructionsField(kind)] == DefaultDocument(kind).fields[InstructionsField(kind)])
      && (row.data == NullCell ==> doc.fields[DataField(kind)] == EmptyObject)
      && (row.data.TextCell? && Truthy(row.data.decoded.value) ==>
            doc.fields[DataField(kind)] == row.data.decoded.value)
      && (row.data.TextCell? && !Truthy(row.data.decoded.value) ==>
            doc.fields[DataField(kind)] == EmptyObject)
  {
    DefaultsWellFormed(kind);
  }

  /** `load_context_from_mysql` / `_sqlite` and `load_tools_prompt_from_mysql`
      / `_sqlite`: a document for a found row, `None` for every failure. */
  function LoadFromStore(kind: Kind, o: StoreOutcome): (r: Option<Json>)
    ensures r.Some? <==> o.Found? && o.row.data != TextCell(None)
    ensures r.Some? ==> WellFormed(kind, r.value)
  {
    match o
    case Found(row) => FillRow(kind, row)
    case _ => None
  }

  /** What reading the kind's JSON file gave: no such file, a read or parse
      failure, or the parsed value (of any JSON type). */
  datatype FileOutcome = Missing | Unreadable(reason: string) | Parsed(value: Json)

  /** `load_context_data` / `load_tools_prompt_from_file`. */
  function LoadFromFile(kind: Kind, f: FileOutcome): (r: Json)
    ensures f.Parsed? ==> r == f.value
    ensures !f.Parsed? ==> r == DefaultDocument(kind)
  {
    match f
    case Parsed(j) => j
    case _ => DefaultDocument(kind)
  }

  /** `DB_TYPE` values that select a store tier. */
  predicate StoreConfigured(dbType: string) {
    dbType == "mysql" || dbType == "sqlite"
  }

  /** `load_context_by_report_id` / `load_tools_prompt`: the store tier when
      `DB_TYPE` names one, then the file tier for a `None`. */
  function Resolve(kind: Kind, dbType: string, store: Store, id: string, file: FileOutcome): (r: Json)
    ensures r == LoadFromFile(kind, file) || WellFormed(kind, r)
  {
    var fromStore := if StoreConfigured(dbType) then LoadFromStore(kind, Query(store, kind, id)) else None;
    if fromStore.Some? then fromStore.value else LoadFromFile(kind, file)
  }

  /** Tier order: a document from the store is returned as is, with no file
      lookup; otherwise the file's parsed value; otherwise the default. */
  lemma TierOrder(kind: Kind, dbType: string, store: Store, id: string, file: FileOutcome)
    ensures var o := Query(store, kind, id);
      && (StoreConfigured(dbType) && o.Found? && o.row.data != TextCell(None) ==>
            Resolve(kind, dbType, store, id, file) == FillRow(kind, o.row).value)
      && (!(StoreConfigured(dbType) && o.Found? && o.row.data != TextCell(None)) ==>
            Resolve(kind, dbType, store, id, file) == LoadFromFile(kind, file))
  {
  }

  /** Resolution never fails: with every store failure (no backend, a
      query error, no active row, undecodable data) and no usable file,
      the built-in document comes back. */
  lemma BrokenTiersGiveDefault(kind: Kind, dbType: string, store: Store, id: string, file: FileOutcome)
    requires var o := Query(store, kind, id); !o.Found? || o.row.data == TextCell(None)
    requires !file.Parsed?
    ensures Resolve(kind, dbType, store, id, file) == DefaultDocument(kind)
  {
  }

  /** The store answers first: a found, decodable row wins whatever the file holds. */
  lemma StoreHitIgnoresFile(kind: Kind, dbType: string, store: Store, id: string, f1: FileOutcome, f2: FileOutcome)
    requires StoreConfigured(dbType)
    requires var o := Query(store, kind, id); o.Found? && o.row.data != TextCell(None)
    ensures Resolve(kind, dbType, store, id, f1) == Resolve(kind, dbType, store, id, f2)
    ensures WellFormed(kind, Resolve(kind, dbType, store, id, f1))
  {
  }

  /** `get_context`: the store chain only for a non-empty `report_id` with a
      store configured; the file/default chain otherwise. */
  function GetContext(reportId: Option<string>, dbType: string, store: Store, file: FileOutcome): (r: Json)
    ensures r == LoadFromFile(ReportContext, file) || WellFormed(ReportContext, r)
  {
    if reportId.Some? && reportId.value != "" && StoreConfigured(dbType)
    then Resolve(ReportContext, dbType, store, reportId.value, file)
    else LoadFromFile(ReportContext, file)
  }

  /** With a non-empty `report_id` and a store configured, the first active
      record with that key in the context table is what `/api/context`
      serves, whatever the tools table or the file hold. */
  lemma ContextStoreHit(id: string, dbType: string, before: seq<Record>, row: StoreRow, after: seq<Record>,
                        tools: seq<Record>, file: FileOutcome)
    requires id != "" && StoreConfigured(dbType)
    requires forall i :: 0 <= i < |before| ==> !(before[i].id == id && before[i].active)
    requires row.data != TextCell(None)
    ensures GetContext(Some(id), dbType, Tables(before + [Record(id, true, row)] + after, tools), file)
            == FillRow(ReportContext, row).value
  {
    FirstActiveSkips(before, Record(id, true, row), after, id);
  }

  /** A store miss under a non-empty `report_id` (no backend, a query error,
      no active record, or undecodable data) falls through to the file tier. */
  lemma ContextStoreMiss(id: string, dbType: string, store: Store, file: FileOutcome)
    requires id != "" && StoreConfigured(dbType)
    requires var o := Query(store, ReportContext, id); !(o.Found? && o.row.data != TextCell(None))
    ensures GetContext(Some(id), dbType, store, file) == LoadFromFile(ReportContext, file)
  {
  }

  /** Without a non-empty `report_id`, or without a store, the store is not consulted. */
  lemma ContextSkipsStore(reportId: Option<string>, dbType: string, s1: Store, s2: Store, file: FileOutcome)
    requires reportId == None || reportId == Some("") || !StoreConfigured(dbType)
    ensures GetContext(reportId, dbType, s1, file) == GetContext(reportId, dbType, s2, file)
    ensures GetContext(reportId, dbType, s1, file) == LoadFromFile(ReportContext, file)
  {
  }

  /** With no store and no context file, `/api/context` serves the built-in
      report, titled "空间转录组深度分析报告". */
  lemma ContextDefaultTitle(reportId: Option<string>, store: Store)
    ensures var doc := GetContext(reportId, "file", store, Missing);
      && doc.JObj? && "context" in doc.fields && doc.fields["context"].JObj?
      && "report_metadata" in doc.fields["context"].fields
      && doc.fields["context"].fields["report_metadata"].JObj?
      && "title" in doc.fields["context"].fields["report_metadata"].fields
      && doc.fields["context"].fields["report_metadata"].fields["title"] == JStr("空间转录组深度分析报告")
  {
    DefaultContextTitle();
  }

  /** With the default key list, a request carrying `X-Access-Key:
      demo-key-123` and no store or context file receives the built-in report. */
  lemma DefaultKeyOpensContext(reportId: Option<string>, store: Store)
    ensures ContextEndpoint(Headers(Some(DefaultKeyList), None), ParseKeyList(None), reportId, "file", store, Missing)
      == JsonReply(200, DefaultContext)
  {
    var keys := ParseKeyList(None);
    DefaultKeyAccepted();
    DefaultKeyShape(DefaultKeyList);
    AcceptedKeyOpensContext(DefaultKeyList, keys, reportId, "file", store, Missing);
    FileTierContext(reportId, store);
  }

  /** With `DB_TYPE` naming no store and no context file, the built-in report is served. */
  lemma FileTierContext(reportId: Option<string>, store: Store)
    ensures GetContext(reportId, "file", store, Missing) == DefaultContext
  {
    ContextSkipsStore(reportId, "file", store, store, Missing);
  }

  /** A key sent in `X-Access-Key` that the key list accepts reaches the
      context resolver. */
  lemma AcceptedKeyOpensContext(k: string, keys: seq<string>, reportId: Option<string>, dbType: string,
                                store: Store, file: FileOutcome)
    requires k != "" && Stripped(k) && VerifyAccessKey(Some(k), keys)
    ensures ContextEndpoint(Headers(Some(k), None), keys, reportId, dbType, store, file)
      == JsonReply(200, GetContext(reportId, dbType, store, file))
  {
    StrippedIsFixed(k);
  }

  /** `prompt_id` when the query string has none. */
  const DefaultPromptId: string := "default_tools_prompt"

  /** `get_tools_prompt`: always the full chain, keyed by the `prompt_id`
      argument (an empty one included) or `"default_tools_prompt"`. */
  function GetToolsPrompt(promptId: Option<string>, dbType: string, store: Store, file: FileOutcome): (r: Json)
    ensures r == LoadFromFile(ToolsPrompt, file) || WellFormed(ToolsPrompt, r)
  {
    Resolve(ToolsPrompt, dbType, store, promptId.GetOr(DefaultPromptId), file)
  }

  /** Without an argument, the tools prompt is looked up under
      `"default_tools_prompt"`: an active record with that key in a
      configured store is what the endpoint serves. */
  lemma ToolsPromptDefaultKey(dbType: string, before: seq<Record>, row: StoreRow, after: seq<Record>,
                              contexts: seq<Record>, file: FileOutcome)
    requires StoreConfigured(dbType)
    requires forall i :: 0 <= i < |before| ==> !(before[i].id == DefaultPromptId && before[i].active)
    requires row.data != TextCell(None)
    ensures GetToolsPrompt(None, dbType, Tables(contexts, before + [Record(DefaultPromptId, true, row)] + after), file)
            == FillRow(ToolsPrompt, row).value
  {
    FirstActiveSkips(before, Record(DefaultPromptId, true, row), after, DefaultPromptId);
  }

  /** Any `prompt_id` argument, the empty string included, is the key looked
      up: an active record with that key in a configured store is what the
      endpoint serves, whatever the context table or the file hold. */
  lemma ToolsPromptKey(id: string, dbType: string, before: seq<Record>, row: StoreRow, after: seq<Record>,
                       contexts: seq<Record>, file: FileOutcome)
    requires StoreConfigured(dbType)
    requires forall i :: 0 <= i < |before| ==> !(before[i].id == id && before[i].active)
    requires row.data != TextCell(None)
    ensures GetToolsPrompt(Some(id), dbType, Tables(contexts, before + [Record(id, true, row)] + after), file)
            == FillRow(ToolsPrompt, row).value
  {
    FirstActiveSkips(before, Record(id, true, row), after, id);
  }

  /** With `DB_TYPE` naming no store, the tools prompt comes from the file
      tier whatever the store holds. */
  lemma ToolsPromptSkipsStore(promptId: Option<string>, dbType: string, s1: Store, s2: Store, file: FileOutcome)
    requires !StoreConfigured(dbType)
    ensures GetToolsPrompt(promptId, dbType, s1, file) == GetToolsPrompt(promptId, dbType, s2, file)
    ensures GetToolsPrompt(promptId, dbType, s1, file) == LoadFromFile(ToolsPrompt, file)
  {
  }

  /** A store miss for the key looked up (the argument, or
      `"default_tools_prompt"` without one) falls through to the file tier. */
  lemma ToolsPromptStoreMiss(promptId: Option<string>, dbType: string, store: Store, file: FileOutcome)
    requires StoreConfigured(dbType)
    requires var o := Query(store, ToolsPrompt, promptId.GetOr(DefaultPromptId));
      !(o.Found? && o.row.data != TextCell(None))
    ensures GetToolsPrompt(promptId, dbType, store, file) == LoadFromFile(ToolsPrompt, file)
  {
  }

  /** An empty `prompt_id` is not replaced by the default key: with only the
      default record stored, `?prompt_id=` falls through to the file tier. */
  lemma EmptyPromptIdNotDefaulted(dbType: string, row: StoreRow, contexts: seq<Record>, file: FileOutcome)
    requires StoreConfigured(dbType)
    requires row.data != TextCell(None)
    ensures GetToolsPrompt(Some(""), dbType, Tables(contexts, [Record(DefaultPromptId, true, row)]), file)
            == LoadFromFile(ToolsPrompt, file)
  {
    var rows := [Record(DefaultPromptId, true, row)];
    assert FirstActive(rows, "") == None;
  }

  /** Records before the first active match do not matter. */
  lemma {:induction false} FirstActiveSkips(before: seq<Record>, r: Record, after: seq<Record>, id: string)
    requires forall i :: 0 <= i < |before| ==> !(before[i].id == id && before[i].active)
    requires r.id == id && r.active
    ensures FirstActive(before + [r] + after, id) == Some(r.row)
    decreases |before|
  {
    if before == [] {
      assert before + [r] + after == [r] + after;
    } else {
      assert (before + [r] + after)[1..] == before[1..] + [r] + after;
      FirstActiveSkips(before[1..], r, after, id);
    }
  }

  /** `GET /api/context` behind the access-key gate. */
  function ContextEndpoint(h: Headers, keys: seq<string>, reportId: Option<string>, dbType: string,
                           store: Store, file: FileOutcome): (r: Reply)
    ensures VerifyAccessKey(GetAccessKey(h), keys) ==> r == JsonReply(200, GetContext(reportId, dbType, store, file))
    ensures !VerifyAccessKey(GetAccessKey(h), keys) ==> r == ErrorReply(401, AuthErrorMessage)
  {
    RequireAuth(h, keys, () => JsonReply(200, GetContext(reportId, dbType, store, file)))
  }

  /** `GET /api/tools_prompt` behind the access-key gate. */
  function ToolsPromptEndpoint(h: Headers, keys: seq<string>, promptId: Option<string>, dbType: string,
                               store: Store, file: FileOutcome): (r: Reply)
    ensures VerifyAccessKey(GetAccessKey(h), keys) ==> r == JsonReply(200, GetToolsPrompt(promptId, dbType, store, file))
    ensures !VerifyAccessKey(GetAccessKey(h), keys) ==> r == ErrorReply(401, AuthErrorMessage)
  {
    RequireAuth(h, keys, () => JsonReply(200, GetToolsPrompt(promptId, dbType, store, file)))
  }
}

=== FILE: text.dfy ===
/** The three `str` operations the access-key code relies on: `strip()`,
    `split(',')` and `startswith(...)`. */
module Text {

  /** Python's `str.isspace()` for one character: the characters `strip()`
      with no argument removes from both ends. */
  predicate IsSpace(c: char) {
    || ('\U{9}' <= c <= '\U{D}')
    || ('\U{1C}' <= c <= '\U{20}')
    || c == '\U{85}' || c == '\U{A0}' || c == '\U{1680}'
    || ('\U{2000}' <= c <= '\U{200A}')
    || c == '\U{2028}' || c == '\U{2029}' || c == '\U{202F}' || c == '\U{205F}'
    || c == '\U{3000}'
  }

  predicate AllSpace(s: string) {
    forall i :: 0 <= i < |s| ==> IsSpace(s[i])
  }

  /** A string with no whitespace at either end: what `strip()` returns. */
  predicate Stripped(s: string) {
    s == [] || (!IsSpace(s[0]) && !IsSpace(s[|s| - 1]))
  }

  /** `str.lstrip()`: drops a prefix, leaving nothing or a non-space first character. */
  function TrimStart(s: string): (r: string)
    ensures |r| <= |s| && r == s[|s| - |r|..]
    ensures r == [] || !IsSpace(r[0])
    decreases |s|
  {
    if |s| > 0 && IsSpace(s[0]) then TrimStart(s[1..]) else s
  }

  /** What `TrimStart` drops is whitespace only. */
  lemma {:induction false} TrimStartDropsSpace(s: string)
    ensures AllSpace(s[..|s| - |TrimStart(s)|])
    decreases |s|
  {
    if |s| > 0 && IsSpace(s[0]) {
      TrimStartDropsSpace(s[1..]);
      var k := |s| - |TrimStart(s)|;
      assert forall i :: 1 <= i < k ==> s[..k][i] == s[1..][..k - 1][i - 1];
    }
  }

  /** `str.rstrip()`: drops a suffix, leaving nothing or a non-space last character. */
  function TrimEnd(s: string): (r: string)
    ensures |r| <= |s| && r == s[..|r|]
    ensures r == [] || !IsSpace(r[|r| - 1])
    decreases |s|
  {
    if |s| > 0 && IsSpace(s[|s| - 1]) then TrimEnd(s[..|s| - 1]) else s
  }

  /** What `TrimEnd` drops is whitespace only. */
  lemma {:induction false} TrimEndDropsSpace(s: string)
    ensures AllSpace(s[|TrimEnd(s)|..])
    decreases |s|
  {
    if |s| > 0 && IsSpace(s[|s| - 1]) {
      var init := s[..|s| - 1];
      TrimEndDropsSpace(init);
      var k := |TrimEnd(s)|;
      assert forall i :: 0 <= i < |s| - 1 - k ==> s[k..][i] == init[k..][i];
    }
  }

  /** `str.strip()`: whitespace dropped from both ends. */
  function Strip(s: string): (r: string)
    ensures Stripped(r)
    ensures |r| <= |s|
  {
    var t := TrimStart(s);
    var r := TrimEnd(t);
    assert r != [] ==> r[0] == t[0];
    r
  }

  /** `strip()` returns a slice of its input, and everything cut off on
      either side is whitespace. */
  lemma StripIsSlice(s: string)
    ensures exists i, j ::
      (0 <= i <= j <= |s| && Strip(s) == s[i..j] && AllSpace(s[..i]) && AllSpace(s[j..]))
  {
    var t := TrimStart(s);
    var r := TrimEnd(t);
    TrimStartDropsSpace(s);
    TrimEndDropsSpace(t);
    var i := |s| - |t|;
    assert r == s[i..i + |r|];
    assert s[i + |r|..] == t[|r|..];
  }

  /** Padding a stripped string with whitespace on both sides and then
      stripping gives it back: `strip()` removes exactly the padding. */
  lemma {:induction false} StripPadded(left: string, core: string, right: string)
    requires AllSpace(left) && AllSpace(right) && Stripped(core)
    ensures Strip(left + core + right) == core
  {
    if core == [] {
      var pad := left + right;
      assert AllSpace(pad) by {
        forall i | 0 <= i < |pad| ensures IsSpace(pad[i]) {
          if i < |left| { assert pad[i] == left[i]; } else { assert pad[i] == right[i - |left|]; }
        }
      }
      assert left + core + right == pad + [];
      TrimStartPadded(pad, []);
    } else {
      assert left + core + right == left + (core + right);
      TrimStartPadded(left, core + right);
      TrimEndPadded(core, right);
    }
  }

  lemma {:induction false} TrimStartPadded(left: string, rest: string)
    requires AllSpace(left)
    requires rest == [] || !IsSpace(rest[0])
    ensures TrimStart(left + rest) == rest
    decreases |left|
  {
    if left == [] {
      assert left + rest == rest;
    } else {
      assert (left + rest)[1..] == left[1..] + rest;
      TrimStartPadded(left[1..], rest);
    }
  }

  lemma {:induction false} TrimEndPadded(core: string, right: string)
    requires AllSpace(right)
    requires core == [] || !IsSpace(core[|core| - 1])
    ensures TrimEnd(core + right) == core
    decreases |right|
  {
    if right == [] {
      assert core + right == core;
    } else {
      var s := core + right;
      assert s[..|s| - 1] == core + right[..|right| - 1];
      TrimEndPadded(core, right[..|right| - 1]);
    }
  }

  /** Stripping twice is stripping once; and `s` is its own strip exactly
      when it has no whitespace at either end. */
  lemma StripIdempotent(s: string)
    ensures Strip(Strip(s)) == Strip(s)
    ensures Strip(s) == s <==> Stripped(s)
  {
    var r := Strip(s);
    StrippedIsFixed(r);
    if Stripped(s) {
      StrippedIsFixed(s);
    }
  }

  lemma StrippedIsFixed(s: string)
    requires Stripped(s)
    ensures Strip(s) == s
  {
    var e: string := [];
    assert e + s + e == s;
    StripPadded(e, s, e);
  }

  /** A string strips to `""` exactly when it is all whitespace. */
  lemma StripEmptyIffAllSpace(s: string)
    ensures Strip(s) == "" <==> AllSpace(s)
  {
    if AllSpace(s) {
      StripPadded(s, "", []);
      assert s + "" + [] == s;
    } else {
      var k :| 0 <= k < |s| && !IsSpace(s[k]);
      var t := TrimStart(s);
      TrimStartDropsSpace(s);
      TrimEndDropsSpace(t);
    }
  }

  /** `s.startswith(p)`: an exact, case-sensitive prefix test. */
  function StartsWith(s: string, p: string): (b: bool)
    ensures b <==> |p| <= |s| && forall i :: 0 <= i < |p| ==> s[i] == p[i]
  {
    |p| <= |s| && s[..|p|] == p
  }

  /** `s.split(sep)` with an explicit one-character separator: the pieces
      between separators, empty pieces included, and `[""]` for `""`. */
  function Split(s: string, sep: char): (parts: seq<string>)
    ensures |parts| >= 1
    ensures forall i :: 0 <= i < |parts| ==> sep !in parts[i]
    decreases |s|
  {
    if s == [] then [""]
    else
      var rest := Split(s[1..], sep);
      if s[0] == sep then [""] + rest
      else [[s[0]] + rest[0]] + rest[1..]
  }

  /** A string without the separator splits into itself alone. */
  lemma {:induction false} SplitWithoutSeparator(s: string, sep: char)
    requires sep !in s
    ensures Split(s, sep) == [s]
    decreases |s|
  {
    if s != [] {
      assert s[0] in s;
      assert forall c :: c in s[1..] ==> c in s;
      SplitWithoutSeparator(s[1..], sep);
      assert [s[0]] + s[1..] == s;
    }
  }

  /** `sep.join(parts)`. */
  function Join(parts: seq<string>, sep: char): string
    requires |parts| >= 1
    decreases |parts|
  {
    if |parts| == 1 then parts[0] else parts[0] + [sep] + Join(parts[1..], sep)
  }

  /** Joining the pieces of a split gives back the original string. */
  lemma {:induction false} JoinSplit(s: string, sep: char)
    ensures Join(Split(s, sep), sep) == s
    decreases |s|
  {
    if s != [] {
      var rest := Split(s[1..], sep);
      JoinSplit(s[1..], sep);
      if s[0] == sep {
        assert ([""] + rest)[1..] == rest;
      } else {
        var parts := [[s[0]] + rest[0]] + rest[1..];
        if |rest| > 1 {
          assert parts[1..] == rest[1..];
          assert Join(rest, sep) == rest[0] + [sep] + Join(rest[1..], sep);
        }
      }
    }
  }

  /** Splitting a join of separator-free pieces gives back the pieces: the
      two operations are inverse on their whole domains. */
  lemma {:induction false} SplitJoin(parts: seq<string>, sep: char)
    requires |parts| >= 1
    requires forall i :: 0 <= i < |parts| ==> sep !in parts[i]
    ensures Split(Join(parts, sep), sep) == parts
    decreases |parts|, |parts[0]|
  {
    var p := parts[0];
    if p == [] {
      if |parts| > 1 {
        var tail := Join(parts[1..], sep);
        assert Join(parts, sep) == [sep] + tail;
        SplitCons(sep, tail, sep);
        SplitJoin(parts[1..], sep);
        assert [""] + parts[1..] == parts;
      }
    } else {
      var shorter := [p[1..]] + parts[1..];
      ShorterHasNoSeparator(parts, sep);
      SplitJoin(shorter, sep);
      JoinShorter(parts, sep);
      SplitCons(p[0], Join(shorter, sep), sep);
      assert p == [p[0]] + p[1..];
      assert shorter[1..] == parts[1..];
      assert [[p[0]] + shorter[0]] + shorter[1..] == parts;
    }
  }

  /** One unfolding of `Split` on a string given as first character and rest. */
  lemma SplitCons(c: char, rest: string, sep: char)
    ensures c == sep ==> Split([c] + rest, sep) == [""] + Split(rest, sep)
    ensures c != sep ==> Split([c] + rest, sep) == [[c] + Split(rest, sep)[0]] + Split(rest, sep)[1..]
  {
    assert ([c] + rest)[1..] == rest;
  }

  lemma ShorterHasNoSeparator(parts: seq<string>, sep: char)
    requires |parts| >= 1 && parts[0] != []
    requires forall i :: 0 <= i < |parts| ==> sep !in parts[i]
    ensures var shorter := [parts[0][1..]] + parts[1..];
      forall i :: 0 <= i < |shorter| ==> sep !in shorter[i]
  {
    var shorter := [parts[0][1..]] + parts[1..];
    forall i | 0 <= i < |shorter| ensures sep !in shorter[i] {
      if i == 0 {
        assert sep !in parts[0];
        assert forall c :: c in parts[0][1..] ==> c in parts[0];
      } else {
        assert shorter[i] == parts[i];
      }
    }
  }

  lemma JoinShorter(parts: seq<string>, sep: char)
    requires |parts| >= 1 && parts[0] != []
    ensures Join(parts, sep) == [parts[0][0]] + Join([parts[0][1..]] + parts[1..], sep)
  {
    var p := parts[0];
    var shorter := [p[1..]] + parts[1..];
    assert p == [p[0]] + p[1..];
    assert shorter[1..] == parts[1..];
    if |parts| > 1 {
      assert Join(shorter, sep) == p[1..] + [sep] + Join(parts[1..], sep);
    }
  }
}

=== FILE: wrappers.dfy ===
/** Optional values, standing in for Python's `None` wherever the server
    code tests a value against it. */
module Wrappers {

  datatype Option<+T> = None | Some(value: T) {

    /** The value held, or `default` for `None` (Python's `x if x is not None else d`). */
    function GetOr(default: T): T {
      match this
      case Some(v) => v
      case None => default
    }
  }

  /** A value, or the description of the exception that prevented it. */
  datatype Result<+R, +E> = Success(value: R) | Failure(error: E)
}
